=== FILE: README.md ===
# Survey intake client: autosave editor, traversal and review rules

A Dafny model of the core of a React survey client backed by a hosted
relational data service. Users answer a questionnaire one question at a
time. Each answer is saved shortly after the user stops typing. A submission
record is created lazily on the first save. A completed submission can be
reopened for editing by forking it, and an in-progress one can be continued.

The model is functional. The store, the per-question editor and the survey
page are immutable datatypes, and every event is a pure step function.
Service calls become operations on an abstract store whose outcome
(success or failure, generated ids, the signed-in user) is an explicit
input. Asynchrony is explicit. A save captures the render it came from, and
it stays in flight until a `Settle` step resolves it, so stale closures and
overlapping saves can be stated and proved about.

Modules:

- `Types`: entities, JavaScript values (`Value`), truthiness, the editor's
  initial-value rule, `String()` conversion.
- `Collections`: `reduce`-into-a-record indexing (later rows win) and
  order-keeping `filter`.
- `Store`: the submissions and answers tables, with the answers' natural key
  (submission id, question id) and their foreign key to submissions.
- `Renderer`: per-kind controls, radio selection and checkbox toggling.
- `Editor`: the single-question autosave editor (debounce, lazy submission
  creation, payload classification, upsert, save status, keyboard and
  buttons).
- `Traversal`: the survey page (resume or fork, Next, Previous, completion,
  redirect, render gate).
- `Review`: the review page (answer formatting, option labels, loading,
  skipping answers whose question is missing).
- `Dashboard`: the submission list (badge, Edit/Continue, two-step delete).
- `Session`: the page and its editor together under a sequence of events.

Three behaviours of the code are easy to misread:

- Enter advances without saving, although the Next button saves.
- Next on the last question completes the submission and leaves the index
  on that question; it never moves the index past the end.
- Only the number, date and select controls forward Enter. Radio and
  checkbox groups have no key handler, and the multi-line text kind ignores
  Enter.

## Model

| member | source | states |
|---|---|---|
| Types.InitialValue | src/components/QuestionSingle.tsx:26-29 | the editor starts from the structured column if it is not null, else the text column, else ""; never undefined, so the mount-time save is armed |
| Types.StatusText | src/types.ts:36 | the wire text is "completed" exactly for a completed submission |
| Types.ToText | src/components/QuestionSingle.tsx:105 | `toString()` gives a string back unchanged and a number as its canonical digits |
| Types.JoinWith | src/pages/ReveiwSubmission.tsx:100 | `join(", ")`: the result starts with the first text and ends with the last, and its length is the texts' lengths plus one separator per neighbouring pair; no texts give "" |
| Types.JoinWithAppend | src/pages/ReveiwSubmission.tsx:100 | joining a concatenation is the join of each part with one separator between them, so separators fall exactly between neighbouring texts |
| Types.ElementTexts | src/pages/ReveiwSubmission.tsx:100 | `join` renders each element through `toString`, null and undefined as "" |
| Collections.IndexBy | src/pages/SurveyPage.tsx:76-79 | every row's key is in the index, and each key maps to the last row carrying it |
| Collections.IndexByKeys | src/pages/ReveiwSubmission.tsx:78-81 | the index's keys are exactly the keys occurring among the rows |
| Collections.Filter | src/pages/Dashboard.tsx:134-136 | an element is kept exactly when it was present and passes the test; never longer than the input |
| Collections.FilterAppend | src/components/QuestionRenderer.tsx:103-105 | filtering distributes over concatenation, so kept elements keep their order |
| Collections.FilterAll | src/components/QuestionRenderer.tsx:103-105 | a filter every element passes returns the list unchanged |
| Store.SelectSubmission | src/pages/SurveyPage.tsx:38-44 | a lookup succeeds exactly when the service answers and the id exists, returning the stored row; a missing id is NotFound |
| Store.InsertSubmission | src/components/QuestionSingle.tsx:74-85 | a successful insert adds exactly one in-progress submission under the generated id and changes nothing else; a colliding id is refused |
| Store.SetStatus | src/pages/SurveyPage.tsx:169-172 | the update changes only that submission's status; matching no row is not an error |
| Store.Upsert | src/components/QuestionSingle.tsx:109-116 | one row per (submission, question); an existing row keeps its id and takes the new columns, no other row changes; an unknown submission violates the foreign key |
| Store.DeleteAnswersOf | src/pages/Dashboard.tsx:114-121 | afterwards the submission has no answers; every other answer and every submission are kept |
| Store.DeleteSubmission | src/pages/Dashboard.tsx:123-131 | refused with a foreign-key error while answers reference the submission; otherwise removes exactly that submission |
| Store.AnswersOf | src/pages/SurveyPage.tsx:68-71 | the answers of one submission, keyed by question id |
| Store.UpsertKeepsWellKeyed | src/components/QuestionSingle.tsx:109-114 | an upsert preserves the key and foreign-key invariant of the store |
| Store.UpsertTwiceOneRow | src/components/QuestionSingle.tsx:110-112 | saving the same pair twice leaves one row with the first id and the second value |
| Store.UpsertIdempotent | src/components/QuestionSingle.tsx:110-114 | repeating an identical save changes nothing and returns the same row |
| Store.DeleteOrder | src/pages/Dashboard.tsx:113-131 | deleting the submission first is refused while it has answers; answers first, then the submission, succeeds |
| Store.IndexedListingIsAnswersOf | src/pages/SurveyPage.tsx:67-81 | indexing the fetched answer rows by question id recovers exactly the stored answers of that submission |
| Renderer.ControlValue | src/components/QuestionRenderer.tsx:19-60 | text, number, date and select controls show null and undefined as ""; radio and checkbox groups have no single control value |
| Renderer.ChangedValue | src/components/QuestionRenderer.tsx:37-39 | a number control reports "" for empty input and `Number` of the input otherwise; the other controls report the raw text |
| Renderer.ControlShowsChange | src/components/QuestionRenderer.tsx:19-60 | a text, date or select control shows back exactly what was entered, and a number control shows "" or the parsed number |
| Renderer.RadioSelect | src/components/QuestionRenderer.tsx:80-81 | choosing an option makes exactly that option checked |
| Renderer.RadioSelectChecksOne | src/components/QuestionRenderer.tsx:75-85 | after a choice, the checked options are exactly those sharing the chosen value |
| Renderer.CheckboxChecked | src/components/QuestionRenderer.tsx:92-94 | an option is checked exactly when the value is an array holding the option's value |
| Renderer.SpreadOrEmpty | src/components/QuestionRenderer.tsx:101 | a falsy value spreads to nothing, an array to its elements, a string to its characters; anything else throws |
| Renderer.Tick | src/components/QuestionRenderer.tsx:101 | ticking appends the option's value after the existing elements, which keep their order |
| Renderer.Untick | src/components/QuestionRenderer.tsx:102-105 | unticking keeps exactly the elements different from the option's value; a falsy value gives []; other non-arrays throw |
| Renderer.TickUntickChecked | src/components/QuestionRenderer.tsx:92-105 | after ticking the option is checked; after unticking it is not |
| Renderer.UntickUndoesTick | src/components/QuestionRenderer.tsx:100-105 | unticking a just-ticked option on an array that lacked it restores the array |
| Renderer.CheckboxChange | src/components/QuestionRenderer.tsx:100-105 | a checkbox change ticks or unticks, and the option is checked in the reported value exactly when the box was ticked |
| Renderer.UntickKeepsOrder | src/components/QuestionRenderer.tsx:102-105 | unticking distributes over any split of the array, so the remaining elements keep their order |
| Editor.SetLocal | src/components/QuestionSingle.tsx:53-66 | a new value clears the pending save and arms one for that value with the current question and submission; an undefined value arms nothing |
| Editor.Mount | src/components/QuestionSingle.tsx:26-60 | a fresh editor starts idle on the given question from the answer's initial value, records that answer's id as the last synced, holds the submission prop, has no flicker pending and arms a save at once |
| Editor.Edit | src/components/QuestionSingle.tsx:161 | a mounted editor takes the new value; an unmounted one ignores it |
| Editor.Resync | src/components/QuestionSingle.tsx:47-50 | new props reset the value only when the answer's id differs from the last one synced, and a reset to a different value re-arms the debounce timer with it; otherwise only the question prop changes |
| Editor.Follow | src/components/QuestionSingle.tsx:47-50 | corrected sync: the value is reset exactly when the question changes, from that question's answer, and a reset to a different value re-arms the debounce timer with it |
| Editor.StartSave | src/components/QuestionSingle.tsx:90-93 | starting a save sets status saving and puts the captured render in flight |
| Editor.TimerFire | src/components/QuestionSingle.tsx:58-60 | an armed timer of a mounted editor starts exactly its captured save and shows saving; the timer is then gone and nothing else changes |
| Editor.NextClick | src/components/QuestionSingle.tsx:172-176 | Next starts a save of the current value without waiting, shows saving and asks to advance; the armed timer and everything else stay |
| Editor.PrevClick | src/components/QuestionSingle.tsx:168 | Previous only asks to go back and changes nothing |
| Editor.HandleKeyDown | src/components/QuestionSingle.tsx:131-137 | Enter on any kind but text prevents the default and advances; nothing else does |
| Editor.KeyDown | src/components/QuestionRenderer.tsx:19-71 | a key press advances exactly for Enter on a number, date or select control, and never saves |
| Editor.Unmount | src/components/QuestionSingle.tsx:39-66 | teardown clears the timer and drops the mounted flag; every other field is kept |
| Editor.FlickerFire | src/components/QuestionSingle.tsx:120-123 | the post-save timer returns a mounted editor to idle and leaves an unmounted one's status alone; nothing but the status and the pending-timer count changes |
| Editor.EnsureSubmission | src/components/QuestionSingle.tsx:68-88 | a held id is returned and nothing is created; no user fails "not authenticated"; otherwise one in-progress submission for the question's survey is created and its id returned, and every existing submission and answer is kept |
| Editor.ScalarText | src/components/QuestionSingle.tsx:105 | a string is saved as itself and undefined as "" |
| Editor.Payload | src/components/QuestionSingle.tsx:94-107 | arrays, objects and null go to the structured column with the JSON text, cut to its first 1000 characters, as the mirror; other values go to the text column with the structured one null |
| Editor.PayloadReloads | src/components/QuestionSingle.tsx:101-107 | reloading a saved string, array or object gives it back; a number or boolean comes back as its text |
| Editor.Settle | src/components/QuestionSingle.tsx:90-129 | a save persists exactly when a submission is obtained (held, or inserted for a signed-in user), it exists and the upsert succeeds; the store then holds the insert and the upsert, and a failed step leaves the store as that step found it; a mounted editor ends saved with the stored row reported and one idle timer armed, or error; a mounted editor adopts the id of a submission its save created and otherwise keeps its id; an unmounted one changes no state and reports nothing, though its writes land |
| Editor.EditsKeepOnePendingSave | src/components/QuestionSingle.tsx:53-66 | any run of edits leaves at most one pending save, carrying the last value, and starts none |
| Editor.SettledWindowSavesOnce | src/components/QuestionSingle.tsx:58-60 | when the debounce window closes, exactly one save starts, for the final value |
| Editor.NoSaveAfterUnmount | src/components/QuestionSingle.tsx:62-64 | after teardown no edit or timer starts a save |
| Editor.UnmountedIgnoresEdits | src/components/QuestionSingle.tsx:42-44 | an unmounted editor is unchanged by any run of edits |
| Editor.FireThenNextLeavesTwoUnheldSaves | src/components/QuestionSingle.tsx:172-176 | the mount-time save firing and then Next leave two saves that both captured "no submission" |
| Editor.LazyCreationRace | src/components/QuestionSingle.tsx:68-88 | two such saves settling each create a submission: two are added |
| Editor.FirstSaveCreates | src/components/QuestionSingle.tsx:68-98 | a first save adds exactly one submission and stores the answer under it |
| Editor.HeldSaveCreatesNothing | src/components/QuestionSingle.tsx:69 | a save that captured a submission id leaves the submissions untouched |
| Editor.CreatedIdIsReused | src/components/QuestionSingle.tsx:68-88 | after a save creates the submission, the editor holds its id, and the next save it starts (by Next or by a new value's timer) captures that id and creates nothing |
| Traversal.Start | src/pages/SurveyPage.tsx:14-17 | a new traversal is on the first question with no answers and no submission |
| Traversal.Target | src/pages/SurveyPage.tsx:35 | `edit` wins over `continue` |
| Traversal.LoadExisting | src/pages/SurveyPage.tsx:29-91 | without parameters nothing loads; the alert shows exactly when the fetch, the fork or the answer fetch fails, and then the answers stay as they were; otherwise the target's answers are shown, indexed by question; the fetched id is adopted, or a completed target under `edit` is forked into a new in-progress submission that is adopted; the store changes only by that fork, and a failure before adoption keeps the active id |
| Traversal.ContinueAdoptsId | src/pages/SurveyPage.tsx:63-65 | continuing adopts the given id and creates nothing |
| Traversal.EditForksCompleted | src/pages/SurveyPage.tsx:47-62 | editing a completed submission creates and adopts a new in-progress one for the same survey and user, leaving the original unchanged |
| Traversal.ResumeShowsTargetAnswers | src/pages/SurveyPage.tsx:67-81 | a resume shows exactly the stored answers of the original submission, even after a fork |
| Traversal.Complete | src/pages/SurveyPage.tsx:166-178 | without an active submission nothing happens; otherwise that submission's status becomes completed and nothing else in the store changes, and the review opens only on success |
| Traversal.Next | src/pages/SurveyPage.tsx:146-153 | Next advances before the last question and completes on it; it never moves past the last index |
| Traversal.Prev | src/pages/SurveyPage.tsx:155-159 | Previous goes back one, and at the first question does nothing |
| Traversal.Saved | src/pages/SurveyPage.tsx:161-164 | a save report overwrites only its question's entry and adopts the submission id |
| Traversal.Redirect | src/pages/SurveyPage.tsx:93-100 | the review redirect fires exactly for a non-empty survey, an index past the end and an active submission, and opens that submission's review; nothing else changes |
| Traversal.Render | src/pages/SurveyPage.tsx:102-214 | loading shows the spinner; the editor appears exactly when loaded, error-free and on a question, with that question's recorded answer |
| Traversal.EmptySurveyNeverAsks | src/pages/SurveyPage.tsx:133-144 | a survey without questions never shows an editor or redirects |
| Traversal.NavigationStaysInRange | src/pages/SurveyPage.tsx:146-164 | any run of Next, Previous and save reports keeps the index on a question |
| Traversal.NextPrevInverse | src/pages/SurveyPage.tsx:146-159 | Previous undoes Next away from the last question and Next undoes Previous away from the first |
| Traversal.LastNextCompletes | src/pages/SurveyPage.tsx:146-178 | Next on the last question completes the active submission and opens its review; later Nexts do nothing |
| Traversal.NextWithoutSubmissionStays | src/pages/SurveyPage.tsx:166-167 | with no active submission, Next on the last question changes nothing |
| Review.FormatAnswer | src/pages/ReveiwSubmission.tsx:97-105 | a truthy array shows its elements joined with ", ", another truthy value its JSON, else the non-empty text or "No answer provided" |
| Review.BlankOnlyForStructured | src/pages/ReveiwSubmission.tsx:97-105 | a blank display comes only from an array or an empty JSON text |
| Review.ReviewShowsSavedValue | src/pages/ReveiwSubmission.tsx:97-105 | what the editor saved shows as the string itself, or as a checkbox answer's values joined with ", " |
| Review.FindOption | src/pages/ReveiwSubmission.tsx:112 | finds the first option with the value, or reports that none has it |
| Review.OptionLabel | src/pages/ReveiwSubmission.tsx:107-114 | no options or no match gives the value back; otherwise the label of the first option with the value |
| Review.FirstMatchingLabelWins | src/pages/ReveiwSubmission.tsx:112-113 | among options sharing a value, the first one's label is shown |
| Review.Rendered | src/pages/ReveiwSubmission.tsx:179-181 | an answer is rendered exactly when its question was fetched |
| Review.RenderedKeepsOrder | src/pages/ReveiwSubmission.tsx:179-200 | rendered answers keep their fetched order |
| Review.Load | src/pages/ReveiwSubmission.tsx:35-90 | the submission is shown exactly when it exists and the fetch succeeds, else "Submission not found"; a failed answer fetch gives "Failed to load answers", and a failed question fetch (made only when there are answers) "Failed to load questions"; there is no error exactly when every fetch that is made succeeds, and then the questions are indexed by id |
| Review.OrphansSkipped | src/pages/ReveiwSubmission.tsx:66-84 | after a clean load, an answer is rendered exactly when the question fetch returned its question |
| Dashboard.BadgeAsWritten | src/pages/Dashboard.tsx:74-99 | as written: "Completed" for completed, a blank badge for inherited object keys, "In Progress" otherwise |
| Dashboard.BlankBadgeForInheritedKey | src/pages/Dashboard.tsx:88-90 | the statuses "constructor" and "toString" render a blank badge |
| Dashboard.Badge | src/pages/Dashboard.tsx:74-90 | corrected: "Completed" exactly for completed, "In Progress" for every other status |
| Dashboard.BadgeFixAgreesElsewhere | src/pages/Dashboard.tsx:88-90 | the two badges differ exactly on the inherited keys |
| Dashboard.ActionLabel | src/pages/Dashboard.tsx:250 | the action reads "Edit" exactly for completed, else "Continue" |
| Dashboard.BadgeMatchesAction | src/pages/Dashboard.tsx:238-250 | badge and action agree, and both follow a stored submission's status |
| Dashboard.HandleEdit | src/pages/Dashboard.tsx:151-165 | a completed row opens `edit=<id>` only after confirmation, declining goes nowhere; any other row opens `continue=<id>` without asking |
| Dashboard.EditResumesRow | src/pages/Dashboard.tsx:151-165 | following the action resumes that submission: forked when completed, adopted when in progress |
| Dashboard.DeleteButton | src/pages/Dashboard.tsx:254-257 | a row's delete button is disabled and reads "Deleting..." exactly while that row is being deleted |
| Dashboard.DeleteClick | src/pages/Dashboard.tsx:101-104 | clicking delete selects the row and opens the dialog |
| Dashboard.DeleteCancel | src/pages/Dashboard.tsx:146-149 | cancelling closes the dialog and clears the selection |
| Dashboard.CancelUndoesClick | src/pages/Dashboard.tsx:101-149 | cancel undoes a click from the resting state |
| Dashboard.BeginDelete | src/pages/Dashboard.tsx:109-110 | confirming closes the dialog and marks the selected row as being deleted |
| Dashboard.DeleteConfirm | src/pages/Dashboard.tsx:106-144 | nothing selected does nothing; answers go before the submission, a failure skips the rest and alerts; only success drops exactly that row; selection and marker always clear; the store loses only that submission's answers and then that submission, and is untouched when the answer delete fails |
| Dashboard.DeleteKeepsOrder | src/pages/Dashboard.tsx:134-136 | the surviving rows keep their order |
| Dashboard.DeleteKeepsWellKeyed | src/pages/Dashboard.tsx:113-131 | deleting never breaks the store's key and foreign-key invariant |
| Session.Begin | src/pages/SurveyPage.tsx:204-213 | a new traversal mounts the editor on the first question with "" and no submission |
| Session.Deliver | src/pages/SurveyPage.tsx:146-164 | Next runs the page's Next, Previous its Previous, and a save report records the row under its question and adopts the submission without moving the page; the editor is untouched |
| Session.Rerender | src/pages/SurveyPage.tsx:204-213 | on a question the editor receives that question; after leaving for the review it is unmounted |
| Session.StepKeepsCoherent | src/pages/SurveyPage.tsx:204-213 | every event keeps the editor mounted on the page's current question until the review opens |
| Session.RunKeepsCoherent | src/pages/SurveyPage.tsx:204-213 | so does every run of events |
| Session.CarryOverAsWritten | src/components/QuestionSingle.tsx:47-50 | as written, "A" typed on question 1 stays in the editor on question 2 and is then saved as question 2's answer |
| Session.ClobberAsWritten | src/components/QuestionSingle.tsx:47-50 | as written, the first save's report resets the editor to the saved "A", discarding the "AB" typed meanwhile, and the armed save now carries "A" instead of "AB" |
| Session.ReportResetsAsWritten | src/components/QuestionSingle.tsx:47-50 | as written, a report that gives the edited question its first answer id resets the value to the reported row |
| Session.MovingShowsRecordedAnswer | src/pages/SurveyPage.tsx:204-213 | with the corrected sync, moving to another question shows that question's recorded answer or "" |
| Session.ReportKeepsEdits | src/components/QuestionSingle.tsx:47-50 | with the corrected sync, a save report never changes the value being edited |
| Session.NoCarryOverByQuestion | src/pages/SurveyPage.tsx:204-213 | with the corrected sync, the carry-over run shows "" on question 2 |

## Findings

| source | as written | input that shows it | evidently intended | confidence | as-written member | corrected member |
|---|---|---|---|---|---|---|
| src/components/QuestionSingle.tsx:47-50 | the page renders one unkeyed editor, which resets its value only when the answer's id changes | two unanswered questions; type "A" on the first and press Next before the first save reports back: the second shows "A", and Next saves "A" as its answer | each question shows its own recorded answer, or "" | not executed; high | Session.CarryOverAsWritten | Editor.Follow |
| src/components/QuestionSingle.tsx:47-50 | the first successful save of a question reports an answer with a new id, and that id change resets the value | type "A", let the save start, type "AB", let the save succeed: the editor shows "A" and the pending "AB" save is replaced | a report about the question being edited leaves the typed value alone | not executed; medium (it needs a keystroke between the save firing and its report, a window of one service round trip) | Session.ClobberAsWritten | Editor.Follow |
| src/pages/Dashboard.tsx:88-90 | `statusConfig[status] \|\| statusConfig.in_progress` finds inherited object members | status "constructor": the lookup is a truthy function without `label`, so the badge is blank | every status other than completed shows "In Progress" | not executed; low impact, since the service stores two statuses | Dashboard.BadgeAsWritten | Dashboard.Badge |

The corrected sync is proved in `Session.MovingShowsRecordedAnswer`,
`Session.ReportKeepsEdits` and `Session.NoCarryOverByQuestion`. The
corrected badge is the one `Dashboard.BadgeMatchesAction` relates to the
action label.

## Left out

- Network calls are not modelled as I/O. Each service call is an atomic
  store operation. Its success, the ids the service generates, the signed-in
  user and the fetched rows are inputs.
- Timers are not modelled as clock arithmetic. The 800 ms debounce and the
  800 ms "saved" flicker are armed and fire as discrete events.
- Focus handling is left out.
- `JSON.stringify` is an uninterpreted parameter; only the cut of its text
  to 1000 characters is stated. `Number()` is a parameter
  yielding canonical digits. `toLocaleDateString` and the progress
  percentage are display-only floating point.
- Survey and question loading, authentication, routing, the navigation bar,
  the progress bar, the assessment panel and the admin submissions table are
  left out. The questions are an input sequence in display order. The admin
  table's badge is the as-written rule `Dashboard.BadgeAsWritten` and shares
  its blank badge for inherited keys.
- `alert`, `confirm` and `console.error` are left out. `confirm` is a boolean
  input, and an alert is a returned flag.
- The dashboard's survey list and "view latest" button are left out; they
  only fetch and display.
- The `required` and `validation` question fields are left out; the client
  never reads them.
- Editor.SetLocal: React's `Object.is` bail-out is modelled as structural
  equality. A new array equal to the old one therefore does not re-arm the
  timer here, whereas the source would re-arm it.
- Review.OptionLabel: the source defines it but never calls it; the page
  shows raw values.
- Traversal.LoadExisting: the returned alert flag stands for the "starting
  fresh" alert. The submission fetch, the fork insert and the answer fetch
  fail independently through their flags; any other exception a failed call
  could raise is not distinguished.
- Editor.Payload: Dafny strings count Unicode scalar values, while
  `slice(0, 1000)` counts UTF-16 code units. A JSON text holding characters
  outside the Basic Multilingual Plane is therefore cut later here than in
  the source, and the model never splits a surrogate pair as the source can.
  `Renderer.Characters` spreads a string by scalar values, which matches
  JavaScript's string iterator.
- Editor.Settle: a save's submission insert, the adoption of its id and its
  answer upsert resolve in one step. In the source the editor adopts the new
  id before the upsert returns, so a save started in between already
  carries that id, its upsert can land first, and the older value then
  overwrites it. The model cannot express that interleaving.

=== FILE: collections.dfy ===
/** The two list idioms the client leans on: `reduce` into a record keyed by
    a field (later rows win), and order-keeping `filter`. */
module Collections {

  /** Element `i` is the last one of `xs` whose key is `k`. */
  ghost predicate IsLastWithKey<K, T>(xs: seq<T>, key: T -> K, i: int, k: K) {
    && 0 <= i < |xs|
    && key(xs[i]) == k
    && forall j :: i < j < |xs| ==> key(xs[j]) != k
  }

  /** `xs.reduce((acc, x) => { acc[key(x)] = x; return acc }, {})`. */
  function IndexBy<K, T>(xs: seq<T>, key: T -> K): (m: map<K, T>)
    ensures forall i :: 0 <= i < |xs| ==> key(xs[i]) in m
    ensures forall k :: k in m ==>
      exists i :: IsLastWithKey(xs, key, i, k) && m[k] == xs[i]
  {
    if |xs| == 0 then map[]
    else
      var last := xs[|xs| - 1];
      var m := IndexBy(xs[..|xs| - 1], key)[key(last) := last];
      assert IsLastWithKey(xs, key, |xs| - 1, key(last));
      assert forall k :: k in m && k != key(last) ==>
        exists i :: IsLastWithKey(xs, key, i, k) && m[k] == xs[i] by {
        forall k | k in m && k != key(last)
          ensures exists i :: IsLastWithKey(xs, key, i, k) && m[k] == xs[i]
        {
          var i :| IsLastWithKey(xs[..|xs| - 1], key, i, k)
                   && IndexBy(xs[..|xs| - 1], key)[k] == xs[..|xs| - 1][i];
          assert IsLastWithKey(xs, key, i, k);
        }
      }
      m
  }

  /** The key set of the index is exactly the set of keys occurring in `xs`. */
  lemma IndexByKeys<K, T>(xs: seq<T>, key: T -> K)
    ensures IndexBy(xs, key).Keys == set i | 0 <= i < |xs| :: key(xs[i])
  {
    var m := IndexBy(xs, key);
    forall k | k in m ensures k in set i | 0 <= i < |xs| :: key(xs[i]) {
      var i :| IsLastWithKey(xs, key, i, k) && m[k] == xs[i];
    }
  }

  /** `xs.filter(keep)`. */
  function Filter<T(!new)>(xs: seq<T>, keep: T -> bool): (r: seq<T>)
    ensures |r| <= |xs|
    ensures forall x :: x in r <==> x in xs && keep(x)
  {
    if |xs| == 0 then []
    else Filter(xs[..|xs| - 1], keep)
         + (if keep(xs[|xs| - 1]) then [xs[|xs| - 1]] else [])
  }

  /** Filtering distributes over concatenation, so kept elements stay in
      their original order. */
  lemma {:induction false} FilterAppend<T(!new)>(a: seq<T>, b: seq<T>, keep: T -> bool)
    ensures Filter(a + b, keep) == Filter(a, keep) + Filter(b, keep)
    decreases |b|
  {
    if |b| > 0 {
      var b' := b[..|b| - 1];
      assert (a + b)[..|a + b| - 1] == a + b';
      FilterAppend(a, b', keep);
    } else {
      assert a + b == a;
    }
  }

  /** Filtering keeps everything when every element passes. */
  lemma {:induction false} FilterAll<T(!new)>(xs: seq<T>, keep: T -> bool)
    requires forall i :: 0 <= i < |xs| ==> keep(xs[i])
    ensures Filter(xs, keep) == xs
  {
    if |xs| > 0 {
      FilterAll(xs[..|xs| - 1], keep);
      assert xs[..|xs| - 1] + [xs[|xs| - 1]] == xs;
    }
  }
}

=== FILE: dashboard.dfy ===
/** The dashboard's submission list: its status badge, its Edit/Continue
    action and its two-step delete. */
module Dashboard {
  import opened Types
  import Collections
  import Store
  import Traversal

  /** A listed submission, with the status text as the service stores it. */
  datatype Row = Row(id: Sid, status: string)

  /** The keys every plain object inherits. Looking one of them up in the
      badge table finds a truthy inherited member that has no `label`. */
  const InheritedKeys: set<string> := {
    "constructor", "__proto__", "__defineGetter__", "__defineSetter__",
    "__lookupGetter__", "__lookupSetter__", "hasOwnProperty", "isPrototypeOf",
    "propertyIsEnumerable", "toLocaleString", "toString", "valueOf"
  }

  /** `getStatusBadge` as written: `statusConfig[status] ||
      statusConfig.in_progress`, then its `label`. An inherited key is
      truthy, so the fallback is skipped and the badge text is empty. */
  function BadgeAsWritten(status: string): (caption: string)
    ensures status == "completed" ==> caption == "Completed"
    ensures status in InheritedKeys ==> caption == ""
    ensures status != "completed" && status !in InheritedKeys ==> caption == "In Progress"
  {
    if status == "completed" then "Completed"
    else if status == "in_progress" then "In Progress"
    else if status in InheritedKeys then ""
    else "In Progress"
  }

  /** A status named after an inherited key renders a blank badge. */
  lemma BlankBadgeForInheritedKey()
    ensures BadgeAsWritten("constructor") == ""
    ensures BadgeAsWritten("toString") == ""
  {
  }

  /** The badge as intended: "Completed" for `completed`, "In Progress" for
      every other status. */
  function Badge(status: string): (caption: string)
    ensures caption == "Completed" <==> status == "completed"
    ensures caption == "In Progress" <==> status != "completed"
  {
    if status == "completed" then "Completed" else "In Progress"
  }

  /** The two badges differ exactly on the inherited keys. */
  lemma BadgeFixAgreesElsewhere(status: string)
    ensures BadgeAsWritten(status) == Badge(status) <==> status !in InheritedKeys
  {
  }

  /** The label of the row's second button. */
  function ActionLabel(status: string): (caption: string)
    ensures caption == "Edit" <==> status == "completed"
    ensures caption != "Edit" ==> caption == "Continue"
  {
    if status == "completed" then "Edit" else "Continue"
  }

  /** The badge and the action agree, and for statuses the service stores
      both follow the submission's status. */
  lemma BadgeMatchesAction(status: string, st: Status)
    ensures Badge(status) == "Completed" <==> ActionLabel(status) == "Edit"
    ensures Badge(StatusText(st)) == "Completed" <==> st == Completed
    ensures ActionLabel(StatusText(st)) == "Edit" <==> st == Completed
  {
  }

  /** `handleEditSubmission`: a completed submission is reopened for
      editing (a fork) only after the user confirms; any other submission
      is continued without asking. The result is the survey page's query,
      or None when nothing navigates. */
  function HandleEdit(row: Row, confirmed: bool): (route: Option<Traversal.Params>)
    ensures route.None? <==> row.status == "completed" && !confirmed
    ensures route.Some? && row.status == "completed" ==> route.value == Traversal.Params(Some(row.id), None)
    ensures route.Some? && row.status != "completed" ==> route.value == Traversal.Params(None, Some(row.id))
  {
    if row.status == "completed" then
      if confirmed then Some(Traversal.Params(Some(row.id), None)) else None
    else Some(Traversal.Params(None, Some(row.id)))
  }

  /** Following a row's action resumes that row's submission: a completed
      one is forked into a new in-progress submission and left as it was;
      an in-progress one is adopted as it is. */
  lemma EditResumesRow(p: Traversal.Page, db: Store.Db, s: Submission, net: Traversal.LoadNet)
    requires Store.WellKeyed(db)
    requires s.id in db.submissions && db.submissions[s.id] == s
    requires net.fetchOk && net.insertOk && net.newSid !in db.submissions
    ensures
      var route := HandleEdit(Row(s.id, StatusText(s.status)), true);
      && route.Some?
      && Traversal.Target(route.value) == s.id
      && var r := Traversal.LoadExisting(p, route.value, db, net);
      && (s.status == Completed ==>
            && r.0.active == Some(net.newSid)
            && r.1.submissions[s.id] == s)
      && (s.status == InProgress ==> r.0.active == Some(s.id) && r.1 == db)
  {
    var route := HandleEdit(Row(s.id, StatusText(s.status)), true);
    if s.status == Completed {
      Traversal.EditForksCompleted(p, route.value, db, net);
    } else {
      Traversal.ContinueAdoptsId(p, s.id, db, net);
    }
  }

  // ---------------------------------------------------------------------
  // Deleting

  /** The list, the row picked for deletion, the row being deleted and
      whether the confirmation dialog is open. */
  datatype Dash = Dash(rows: seq<Row>, selected: Option<Row>, deleting: Option<Sid>, dialogOpen: bool)

  /** The row's delete button: its text and whether it is disabled. */
  function DeleteButton(d: Dash, row: Row): (b: (string, bool))
    ensures b.1 <==> d.deleting == Some(row.id)
    ensures b.0 == (if b.1 then "Deleting..." else "Delete")
  {
    if d.deleting == Some(row.id) then ("Deleting...", true) else ("Delete", false)
  }

  /** `handleDeleteClick`: remember the row and open the dialog. */
  function DeleteClick(d: Dash, row: Row): (r: Dash)
    ensures r.selected == Some(row) && r.dialogOpen
    ensures r.rows == d.rows && r.deleting == d.deleting
  {
    d.(selected := Some(row), dialogOpen := true)
  }

  /** `handleDeleteCancel`: close the dialog and forget the row. */
  function DeleteCancel(d: Dash): (r: Dash)
    ensures r.selected.None? && !r.dialogOpen
    ensures r.rows == d.rows && r.deleting == d.deleting
  {
    d.(selected := None, dialogOpen := false)
  }

  /** Cancelling undoes the click. */
  lemma CancelUndoesClick(d: Dash, row: Row)
    requires d.selected.None? && !d.dialogOpen
    ensures DeleteCancel(DeleteClick(d, row)) == d
  {
  }

  function OtherThan(id: Sid): Row -> bool {
    (x: Row) => x.id != id
  }

  /** The state while the deletes are in flight: the dialog is closed and
      the selected row's button shows it is being deleted. */
  function BeginDelete(d: Dash): (r: Dash)
    requires d.selected.Some?
    ensures r.rows == d.rows && r.selected == d.selected && !r.dialogOpen
    ensures DeleteButton(r, d.selected.value).1
  {
    d.(deleting := Some(d.selected.value.id), dialogOpen := false)
  }

  /** `handleDeleteConfirm`: with nothing selected, nothing happens.
      Otherwise the answers are deleted first and then the submission; a
      failure of either step skips the rest and raises an alert. Only
      success drops the row from the list; either way the selection and
      the in-flight marker are cleared. */
  function DeleteConfirm(d: Dash, db: Store.Db, answersOk: bool, submissionOk: bool)
    : (r: (Dash, Store.Db, bool))
    ensures d.selected.None? ==> r == (d, db, false)
    ensures d.selected.Some? ==>
      var sid := d.selected.value.id;
      && r.0.selected.None? && r.0.deleting.None? && !r.0.dialogOpen
      && (r.2 <==> !(answersOk && submissionOk))
      && (!r.2 ==>
            && (forall x :: x in r.0.rows <==> x in d.rows && x.id != sid)
            && sid !in r.1.submissions
            && !Store.HasAnswers(r.1, sid))
      && (r.2 ==> r.0.rows == d.rows)
      && (forall s :: s in db.submissions && s != sid ==>
            s in r.1.submissions && r.1.submissions[s] == db.submissions[s])
      && (forall s :: s in r.1.submissions ==> s in db.submissions)
      && (answersOk ==>
            && (forall k :: k in r.1.answers <==> k in db.answers && k.0 != sid)
            && (forall k :: k in r.1.answers ==> r.1.answers[k] == db.answers[k]))
      && (!answersOk ==> r.1 == db)
      && (answersOk && !submissionOk ==> r.1.submissions == db.submissions && !Store.HasAnswers(r.1, sid))
  {
    match d.selected
    case None => (d, db, false)
    case Some(row) =>
      var busy := BeginDelete(d);
      var done := busy.(deleting := None, selected := None);
      match Store.DeleteAnswersOf(db, row.id, answersOk)
      case Err(_) => (done, db, true)
      case Ok(db1) =>
        match Store.DeleteSubmission(db1, row.id, submissionOk)
        case Err(_) => (done, db1, true)
        case Ok(db2) => (done.(rows := Collections.Filter(d.rows, OtherThan(row.id))), db2, false)
  }

  /** A successful delete keeps the other rows in their order: it drops the
      selected id from each part of any split of the list. */
  lemma DeleteKeepsOrder(d: Dash, db: Store.Db, front: seq<Row>, back: seq<Row>)
    requires d.selected.Some? && d.rows == front + back
    ensures
      var sid := d.selected.value.id;
      var r := DeleteConfirm(d, db, true, true);
      r.0.rows == Collections.Filter(front, OtherThan(sid)) + Collections.Filter(back, OtherThan(sid))
  {
    Collections.FilterAppend(front, back, OtherThan(d.selected.value.id));
  }

  /** Deleting never breaks the store's keys or its foreign key. */
  lemma DeleteKeepsWellKeyed(d: Dash, db: Store.Db, answersOk: bool, submissionOk: bool)
    requires Store.WellKeyed(db)
    ensures Store.WellKeyed(DeleteConfirm(d, db, answersOk, submissionOk).1)
  {
    if d.selected.Some? && answersOk {
      var sid := d.selected.value.id;
      var db1 := Store.DeleteAnswersOf(db, sid, true).value;
      assert Store.WellKeyed(db1);
      if submissionOk {
        var db2 := Store.DeleteSubmission(db1, sid, true).value;
        forall k | k in db2.answers ensures k.0 in db2.submissions {
          assert k.0 != sid;
        }
      }
    }
  }
}

=== FILE: editor.dfy ===
/** The single-question editor: it keeps the value being edited, debounces
    writes, creates the submission lazily on the first save, upserts the
    answer and reports a save status.

    Asynchrony is made explicit. Every `saveAnswer` call captures the
    render it came from (question, value, held submission id) in a
    `Snapshot`; an armed debounce timer holds the snapshot it will save, and
    each started save stays in `flights` until `Settle` resolves it against
    the store. */
module Editor {
  import opened Types
  import Store
  import Renderer

  datatype SaveStatus = Idle | Saving | Saved | Errored

  /** The closure a save runs with. */
  datatype Snapshot = Snapshot(question: Question, value: Value, held: Option<Sid>)

  datatype Editor = Editor(
    question: Question,           // the question prop of the latest render
    answerKey: Option<AnswerId>,  // `answer?.id` the value was last synced from
    local: Value,                 // the value being edited
    status: SaveStatus,
    held: Option<Sid>,            // the submission id this editor saves into
    timer: Option<Snapshot>,      // the armed debounce timer, if any
    flights: seq<Snapshot>,       // saves started and not yet resolved
    flickers: nat,                // armed "saved -> idle" timers
    mounted: bool)

  /** What the editor tells its parent. */
  datatype Signal = Quiet | GoNext | GoPrev | Persisted(row: AnswerRow, sid: Sid)

  /** The outcome of the service calls one save makes: the signed-in user,
      the id and success of a submission insert, and the id and success of
      the answer upsert. */
  datatype Net = Net(user: Option<Uid>, newSid: Sid, insertOk: bool,
                     newAnswerId: AnswerId, upsertOk: bool)

  /** The debounce effect after the value changed to `v`: the previous timer
      is cleared and, unless `v` is undefined, a new one is armed that will
      save `v` with this render's question and submission id. */
  function SetLocal(e: Editor, v: Value): (r: Editor)
    ensures r.local == v
    ensures v == e.local ==> r == e
    ensures v != e.local && !v.Undefined? ==> r.timer == Some(Snapshot(e.question, v, e.held))
    ensures v != e.local && v.Undefined? ==> r.timer.None?
    ensures r == e.(local := v, timer := r.timer)
  {
    if v == e.local then e
    else e.(local := v, timer := if v.Undefined? then None else Some(Snapshot(e.question, v, e.held)))
  }

  /** A fresh editor for `question`. The debounce effect runs on mount, and
      the initial value is never undefined, so a save is armed at once. */
  function Mount(question: Question, heldProp: Option<Sid>, answer: Option<AnswerRow>): (e: Editor)
    ensures e.mounted && e.status == Idle && e.flights == [] && e.held == heldProp
    ensures e.question == question && e.answerKey == AnswerKey(answer) && e.flickers == 0
    ensures e.local == InitialValue(answer)
    ensures e.timer == Some(Snapshot(question, InitialValue(answer), heldProp))
  {
    Editor(question, AnswerKey(answer), InitialValue(answer), Idle, heldProp,
           Some(Snapshot(question, InitialValue(answer), heldProp)), [], 0, true)
  }

  /** The user changed the value. */
  function Edit(e: Editor, v: Value): (r: Editor)
    ensures e.mounted ==> r.local == v
    ensures !e.mounted ==> r == e
    ensures r.question == e.question && r.mounted == e.mounted && r.flights == e.flights
  {
    if e.mounted then SetLocal(e, v) else e
  }

  /** New props from the parent. The value is reset from the supplied answer
      only when `answer?.id` differs from the one last synced; the held
      submission id is state and ignores the prop. */
  function Resync(e: Editor, question: Question, answer: Option<AnswerRow>): (r: Editor)
    ensures r.question == question
    ensures r.held == e.held && r.status == e.status && r.flights == e.flights && r.mounted == e.mounted
    ensures AnswerKey(answer) == e.answerKey ==> r == e.(question := question)
    ensures AnswerKey(answer) != e.answerKey && e.mounted ==>
      r.local == InitialValue(answer) && r.answerKey == AnswerKey(answer)
    ensures AnswerKey(answer) != e.answerKey && e.mounted ==>
      && r == e.(question := question, answerKey := AnswerKey(answer), local := r.local, timer := r.timer)
      && r.timer == (if InitialValue(answer) == e.local then e.timer
                     else Some(Snapshot(question, InitialValue(answer), e.held)))
  {
    if !e.mounted then e.(question := question)
    else if AnswerKey(answer) == e.answerKey then e.(question := question)
    else SetLocal(e.(question := question, answerKey := AnswerKey(answer)), InitialValue(answer))
  }

  /** The prop sync the parent needs: the value is reset from the supplied
      answer exactly when the editor is handed a different question, so it
      neither carries a value over between questions nor overwrites edits
      when a save of the same question reports back. */
  function Follow(e: Editor, question: Question, answer: Option<AnswerRow>): (r: Editor)
    ensures r.question == question
    ensures r.held == e.held && r.status == e.status && r.flights == e.flights && r.mounted == e.mounted
    ensures question.id == e.question.id ==> r == e.(question := question)
    ensures question.id != e.question.id && e.mounted ==>
      r.local == InitialValue(answer) && r.answerKey == AnswerKey(answer)
    ensures question.id != e.question.id && e.mounted ==>
      && r == e.(question := question, answerKey := AnswerKey(answer), local := r.local, timer := r.timer)
      && r.timer == (if InitialValue(answer) == e.local then e.timer
                     else Some(Snapshot(question, InitialValue(answer), e.held)))
  {
    if !e.mounted || question.id == e.question.id then e.(question := question)
    else SetLocal(e.(question := question, answerKey := AnswerKey(answer)), InitialValue(answer))
  }

  /** `saveAnswer()` up to its first suspension: status becomes saving. */
  function StartSave(e: Editor, s: Snapshot): (r: Editor)
    ensures r.flights == e.flights + [s]
    ensures r.status == Saving
    ensures r == e.(flights := r.flights, status := Saving)
  {
    e.(status := Saving, flights := e.flights + [s])
  }

  /** The debounce timer expires and runs the save it captured. */
  function TimerFire(e: Editor): (r: Editor)
    ensures r.timer.None?
    ensures r.question == e.question && r.mounted == e.mounted && r.local == e.local
    ensures e.mounted && e.timer.Some? ==> r.flights == e.flights + [e.timer.value]
    ensures !(e.mounted && e.timer.Some?) ==> r.flights == e.flights
    ensures e.mounted && e.timer.Some? ==> r == e.(timer := None, status := Saving, flights := r.flights)
    ensures !(e.mounted && e.timer.Some?) ==> r == e.(timer := None)
  {
    if e.mounted && e.timer.Some? then StartSave(e.(timer := None), e.timer.value)
    else e.(timer := None)
  }

  /** The Next button: start a save of the current value without awaiting
      it, then ask the parent to advance. The debounce timer stays armed. */
  function NextClick(e: Editor): (r: (Editor, Signal))
    ensures e.mounted ==>
      && r.1 == GoNext
      && r.0.flights == e.flights + [Snapshot(e.question, e.local, e.held)]
      && r.0.timer == e.timer
      && r.0.local == e.local
      && r.0 == e.(status := Saving, flights := r.0.flights)
    ensures !e.mounted ==> r == (e, Quiet)
  {
    if e.mounted then (StartSave(e, Snapshot(e.question, e.local, e.held)), GoNext)
    else (e, Quiet)
  }

  /** The Previous button only asks the parent to go back. */
  function PrevClick(e: Editor): (r: (Editor, Signal))
    ensures r.0 == e
    ensures r.1 == (if e.mounted then GoPrev else Quiet)
  {
    (e, if e.mounted then GoPrev else Quiet)
  }

  /** `handleKeyDown`: Enter on any kind but the multi-line text kind
      prevents the default action and advances. Returns (prevented, advance). */
  function HandleKeyDown(kind: InputType, key: string): (r: (bool, bool))
    ensures r.0 == r.1
    ensures r.1 <==> key == "Enter" && kind != Text
  {
    var advance := key == "Enter" && kind != Text;
    (advance, advance)
  }

  /** A key press in the editor's control. Only the controls that forward
      key presses reach the handler, and advancing this way saves nothing. */
  function KeyDown(e: Editor, key: string): (r: (Editor, Signal))
    ensures r.0 == e
    ensures r.1 == GoNext <==>
      e.mounted && key == "Enter" && e.question.inputType in {Number, Date, Select}
    ensures r.1 != GoNext ==> r.1 == Quiet
  {
    var kind := e.question.inputType;
    if e.mounted && Renderer.ForwardsKeys(kind) && HandleKeyDown(kind, key).1 then (e, GoNext)
    else (e, Quiet)
  }

  /** Teardown: the debounce timer is cleared and the liveness flag drops. */
  function Unmount(e: Editor): (r: Editor)
    ensures !r.mounted && r.timer.None?
    ensures r == e.(mounted := false, timer := None)
  {
    e.(mounted := false, timer := None)
  }

  /** A "saved -> idle" timer expires. */
  function FlickerFire(e: Editor): (r: Editor)
    ensures e.flickers > 0 && e.mounted ==> r.status == Idle && r.flickers == e.flickers - 1
    ensures e.flickers == 0 || !e.mounted ==> r.status == e.status
    ensures r == e.(status := r.status, flickers := r.flickers)
    ensures e.flickers == 0 ==> r == e
  {
    if e.flickers == 0 then e
    else e.(flickers := e.flickers - 1, status := if e.mounted then Idle else e.status)
  }

  /** `ensureSubmission`: a held id is returned as is; otherwise a signed-in
      user gets one new in-progress submission for the question's survey. */
  function EnsureSubmission(held: Option<Sid>, surveyId: string, user: Option<Uid>,
                            db: Store.Db, newSid: Sid, insertOk: bool): (r: Result<(Store.Db, Sid)>)
    ensures held.Some? ==> r == Ok((db, held.value))
    ensures held.None? && user.None? ==> r == Err(NotAuthenticated)
    ensures held.None? && user.Some? ==>
      (r.Ok? <==> insertOk && newSid !in db.submissions)
    ensures held.None? && r.Ok? ==>
      var (db', sid) := r.value;
      && sid == newSid
      && sid !in db.submissions
      && db'.submissions.Keys == db.submissions.Keys + {sid}
      && db'.submissions[sid] == Submission(sid, surveyId, user.value, InProgress)
      && (forall s :: s in db.submissions ==> db'.submissions[s] == db.submissions[s])
      && db'.answers == db.answers
  {
    match held
    case Some(sid) => Ok((db, sid))
    case None =>
      match user
      case None => Err(NotAuthenticated)
      case Some(uid) => Store.InsertSubmission(db, newSid, surveyId, uid, insertOk)
  }

  /** Arrays and objects are stored structurally; `typeof null` is also
      "object", so null takes that branch too. */
  predicate Structured(v: Value) {
    v.Arr? || v.Obj? || v.Null?
  }

  /** `localValue?.toString?.() ?? ""` for the non-structured values. */
  function ScalarText(v: Value): (t: string)
    ensures v.Str? ==> t == v.s
    ensures v.Undefined? ==> t == ""
  {
    if v.Undefined? then "" else ToText(v)
  }

  /** The answer row a save sends. A structured value goes to the structured
      column with its JSON text, cut to 1000 characters, as the text mirror;
      any other value goes to the text column with the structured one
      cleared. `json` stands for `JSON.stringify`. */
  function Payload(sid: Sid, qid: Qid, v: Value, json: Value -> string): (row: AnswerRow)
    ensures row.id.None? && row.submissionId == sid && row.questionId == qid
    ensures row.text.Some?
    ensures Structured(v) ==>
      && row.json == v
      && row.text.value == (if |json(v)| <= 1000 then json(v) else json(v)[..1000])
    ensures !Structured(v) ==> row.json == Null && row.text.value == ScalarText(v)
  {
    if Structured(v) then
      var full := json(v);
      AnswerRow(None, sid, qid, Some(if |full| <= 1000 then full else full[..1000]), v)
    else AnswerRow(None, sid, qid, Some(ScalarText(v)), Null)
  }

  /** Reloading a saved answer into an editor gives back a saved string,
      array or object unchanged, but a number or boolean comes back as its
      text. */
  lemma PayloadReloads(sid: Sid, qid: Qid, v: Value, json: Value -> string)
    ensures v.Str? || v.Arr? || v.Obj? ==> InitialValue(Some(Payload(sid, qid, v, json))) == v
    ensures v.Num? ==> InitialValue(Some(Payload(sid, qid, v, json))) == Str(v.digits)
    ensures v.Bool? ==> InitialValue(Some(Payload(sid, qid, v, json))) == Str(if v.b then "true" else "false")
  {
  }

  function RemoveAt<T>(xs: seq<T>, i: nat): (r: seq<T>)
    requires i < |xs|
    ensures |r| == |xs| - 1
  {
    xs[..i] + xs[i + 1..]
  }

  /** Flight `i` resolves: ensure a submission, upsert the payload, and, if
      the editor is still mounted, report the outcome. After unmount the
      writes still land in the store but the editor state and the parent
      hear nothing. Returns (editor, store, signal). */
  function Settle(e: Editor, i: nat, net: Net, db: Store.Db, json: Value -> string)
    : (r: (Editor, Store.Db, Signal))
    requires i < |e.flights|
    ensures r.0.flights == RemoveAt(e.flights, i)
    ensures r.0.local == e.local && r.0.timer == e.timer && r.0.question == e.question
    ensures r.0.mounted == e.mounted
    ensures !e.mounted ==> r.0 == e.(flights := r.0.flights) && r.2 == Quiet
    ensures e.mounted ==> (r.0.status == Saved <==> r.2.Persisted?)
    ensures e.mounted && !r.2.Persisted? ==> r.0.status == Errored
    ensures
      var s := e.flights[i];
      var made := EnsureSubmission(s.held, s.question.surveyId, net.user, db, net.newSid, net.insertOk);
      && (made.Err? ==> r.1 == db)
      && (made.Ok? ==>
            var (db1, sid) := made.value;
            var up := Store.Upsert(db1, Payload(sid, s.question.id, s.value, json), net.newAnswerId, net.upsertOk);
            r.1 == if up.Ok? then up.value.0 else db1)
      && (e.mounted ==>
            (r.2.Persisted? <==> made.Ok? && net.upsertOk && made.value.1 in made.value.0.submissions))
      && (e.mounted && made.Ok? && s.held.None? ==> r.0.held == Some(made.value.1))
      && (!e.mounted || made.Err? || s.held.Some? ==> r.0.held == e.held)
    ensures r.0.flickers == e.flickers + (if r.2.Persisted? then 1 else 0)
    ensures r.2.Persisted? ==>
      var s := e.flights[i];
      var sid := r.2.sid;
      && (s.held.Some? ==> sid == s.held.value)
      && (sid, s.question.id) in r.1.answers
      && r.2.row == r.1.answers[(sid, s.question.id)]
      && r.2.row.submissionId == sid && r.2.row.questionId == s.question.id
      && r.2.row.json == Payload(sid, s.question.id, s.value, json).json
      && r.2.row.text == Payload(sid, s.question.id, s.value, json).text
  {
    var s := e.flights[i];
    var e1 := e.(flights := RemoveAt(e.flights, i));
    match EnsureSubmission(s.held, s.question.surveyId, net.user, db, net.newSid, net.insertOk)
    case Err(_) =>
      (if e.mounted then e1.(status := Errored) else e1, db, Quiet)
    case Ok((db1, sid)) =>
      var e2 := if e.mounted && s.held.None? then e1.(held := Some(sid)) else e1;
      match Store.Upsert(db1, Payload(sid, s.question.id, s.value, json), net.newAnswerId, net.upsertOk)
      case Err(_) =>
        (if e.mounted then e2.(status := Errored) else e2, db1, Quiet)
      case Ok((db2, row)) =>
        if !e.mounted then (e2, db2, Quiet)
        else (e2.(status := Saved, flickers := e2.flickers + 1), db2, Persisted(row, sid))
  }

  // ---------------------------------------------------------------------
  // Properties over event sequences

  /** A run of user edits. */
  function EditAll(e: Editor, vs: seq<Value>): Editor
    decreases |vs|
  {
    if |vs| == 0 then e else Edit(EditAll(e, vs[..|vs| - 1]), vs[|vs| - 1])
  }

  predicate ChangesFrom(x: Value, vs: seq<Value>) {
    exists i :: 0 <= i < |vs| && vs[i] != x
  }

  /** However many edits arrive inside the debounce window, at most one save
      is armed and it carries the last value; no save starts meanwhile, and
      edits that change nothing leave the editor as it was. */
  lemma {:induction false} EditsKeepOnePendingSave(e: Editor, vs: seq<Value>)
    requires e.mounted
    requires forall i :: 0 <= i < |vs| ==> !vs[i].Undefined?
    ensures EditAll(e, vs).flights == e.flights
    ensures EditAll(e, vs).status == e.status && EditAll(e, vs).mounted
    ensures EditAll(e, vs).question == e.question && EditAll(e, vs).held == e.held
    ensures ChangesFrom(e.local, vs) ==>
      EditAll(e, vs).timer == Some(Snapshot(e.question, vs[|vs| - 1], e.held))
    ensures !ChangesFrom(e.local, vs) ==> EditAll(e, vs) == e
    decreases |vs|
  {
    if |vs| > 0 {
      var init := vs[..|vs| - 1];
      var v := vs[|vs| - 1];
      EditsKeepOnePendingSave(e, init);
      var mid := EditAll(e, init);
      if ChangesFrom(e.local, init) {
        var j :| 0 <= j < |init| && init[j] != e.local;
        assert vs[j] != e.local;
        assert mid.local == init[|init| - 1];
      } else {
        assert mid == e;
        if v != e.local {
          assert vs[|vs| - 1] != e.local;
        } else {
          forall j | 0 <= j < |vs| ensures vs[j] == e.local {
            if j < |init| {
              assert vs[j] == init[j];
            }
          }
        }
      }
    }
  }

  /** When the window settles, exactly one save starts, for the final value. */
  lemma SettledWindowSavesOnce(e: Editor, vs: seq<Value>)
    requires e.mounted
    requires forall i :: 0 <= i < |vs| ==> !vs[i].Undefined?
    requires ChangesFrom(e.local, vs)
    ensures TimerFire(EditAll(e, vs)).flights
         == e.flights + [Snapshot(e.question, vs[|vs| - 1], e.held)]
    ensures TimerFire(EditAll(e, vs)).timer.None?
  {
    EditsKeepOnePendingSave(e, vs);
  }

  /** After teardown no timer is left to fire and nothing more is saved. */
  lemma NoSaveAfterUnmount(e: Editor, vs: seq<Value>)
    ensures TimerFire(EditAll(Unmount(e), vs)).flights == e.flights
  {
    UnmountedIgnoresEdits(Unmount(e), vs);
  }

  lemma {:induction false} UnmountedIgnoresEdits(e: Editor, vs: seq<Value>)
    requires !e.mounted
    ensures EditAll(e, vs) == e
    decreases |vs|
  {
    if |vs| > 0 {
      UnmountedIgnoresEdits(e, vs[..|vs| - 1]);
    }
  }

  /** Mounting with no submission and no answer, letting the mount-time
      timer fire and clicking Next before that save resolves leaves two
      saves in flight that both captured "no submission yet". */
  lemma FireThenNextLeavesTwoUnheldSaves(q: Question)
    ensures NextClick(TimerFire(Mount(q, None, None))).0.flights
         == [Snapshot(q, Str(""), None), Snapshot(q, Str(""), None)]
  {
  }

  /** Two saves that both captured "no submission yet" each create a
      submission: the lazy creation is not guarded against overlap. */
  lemma LazyCreationRace(e: Editor, db: Store.Db, n1: Net, n2: Net, json: Value -> string)
    requires |e.flights| == 2 && e.flights[0].held.None? && e.flights[1].held.None?
    requires n1.user.Some? && n1.insertOk && n1.upsertOk
    requires n2.user.Some? && n2.insertOk && n2.upsertOk
    requires n1.newSid != n2.newSid && n1.newSid !in db.submissions && n2.newSid !in db.submissions
    ensures
      var r1 := Settle(e, 0, n1, db, json);
      var r2 := Settle(r1.0, 0, n2, r1.1, json);
      r2.1.submissions.Keys == db.submissions.Keys + {n1.newSid, n2.newSid}
  {
    var r1 := Settle(e, 0, n1, db, json);
    FirstSaveCreates(e, n1, db, json);
    assert r1.0.flights[0].held.None?;
    assert r1.1.submissions.Keys == db.submissions.Keys + {n1.newSid};
    assert n2.newSid !in r1.1.submissions.Keys;
    assert |r1.0.flights| == 1;
    FirstSaveCreates(r1.0, n2, r1.1, json);
    var r2 := Settle(r1.0, 0, n2, r1.1, json);
    assert r2.1.submissions.Keys == r1.1.submissions.Keys + {n2.newSid};
    var A, B, C := db.submissions.Keys, r1.1.submissions.Keys, r2.1.submissions.Keys;
    AddTwoInTurn(A, B, C, n1.newSid, n2.newSid);
  }

  lemma AddTwoInTurn<T>(a: set<T>, b: set<T>, c: set<T>, x: T, y: T)
    requires b == a + {x} && c == b + {y}
    ensures c == a + {x, y}
  {
  }

  /** A save that captured no submission id, for a signed-in user whose
      insert and upsert succeed, adds exactly the new submission and stores
      the answer under it. */
  lemma FirstSaveCreates(e: Editor, net: Net, db: Store.Db, json: Value -> string)
    requires |e.flights| > 0 && e.flights[0].held.None?
    requires net.user.Some? && net.insertOk && net.upsertOk && net.newSid !in db.submissions
    ensures
      var r := Settle(e, 0, net, db, json);
      && r.1.submissions.Keys == db.submissions.Keys + {net.newSid}
      && r.1.answers.Keys == db.answers.Keys + {(net.newSid, e.flights[0].question.id)}
      && r.0.flights == e.flights[1..]
  {
    var s := e.flights[0];
    var ens := EnsureSubmission(s.held, s.question.surveyId, net.user, db, net.newSid, net.insertOk);
    assert ens.Ok?;
    var (db1, sid) := ens.value;
    var up := Store.Upsert(db1, Payload(sid, s.question.id, s.value, json), net.newAnswerId, net.upsertOk);
    assert up.Ok?;
  }

  /** A save whose snapshot already holds a submission id creates nothing:
      the store's submissions are untouched. */
  lemma HeldSaveCreatesNothing(e: Editor, i: nat, net: Net, db: Store.Db, json: Value -> string)
    requires i < |e.flights| && e.flights[i].held.Some?
    ensures Settle(e, i, net, db, json).1.submissions == db.submissions
  {
  }

  /** Once a save has created the submission, the editor holds its id: the
      next save it starts, by Next or by the timer a new value arms,
      captures that id and so creates nothing. */
  lemma CreatedIdIsReused(e: Editor, i: nat, net: Net, db: Store.Db, json: Value -> string,
                          v: Value, later: Net, db2: Store.Db)
    requires i < |e.flights| && e.mounted && e.flights[i].held.None?
    requires net.user.Some? && net.insertOk && net.newSid !in db.submissions
    ensures
      var e1 := Settle(e, i, net, db, json).0;
      var e2 := NextClick(e1).0;
      && e1.held == Some(net.newSid)
      && e2.flights[|e2.flights| - 1].held == Some(net.newSid)
      && Settle(e2, |e2.flights| - 1, later, db2, json).1.submissions == db2.submissions
      && (v != e1.local && !v.Undefined? ==> Edit(e1, v).timer.value.held == Some(net.newSid))
  {
    var e1 := Settle(e, i, net, db, json).0;
    var e2 := NextClick(e1).0;
    HeldSaveCreatesNothing(e2, |e2.flights| - 1, later, db2, json);
  }
}

=== FILE: renderer.dfy ===
/** The per-kind input controls: what each shows for a value and what value
    each change event produces. */
module Renderer {
  import opened Types
  import Collections

  /** Text, number, date and select controls show `value ?? ""`; radio and
      checkbox groups have no single control value. */
  function ControlValue(kind: InputType, v: Value): (shown: Option<Value>)
    ensures shown.Some? <==> kind !in {Radio, Checkbox}
    ensures shown.Some? && Nullish(v) ==> shown.value == Str("")
    ensures shown.Some? && !Nullish(v) ==> shown.value == v
  {
    if kind in {Radio, Checkbox} then None
    else if Nullish(v) then Some(Str(""))
    else Some(v)
  }

  /** The controls that forward key presses to the editor's handler. */
  predicate ForwardsKeys(kind: InputType) {
    kind in {Text, Number, Date, Select}
  }

  /** The value a text, date or select control reports for its raw input,
      and a number control's `raw === "" ? "" : Number(raw)`; `toNumber`
      stands for `Number` and yields the canonical text of the result. */
  function ChangedValue(kind: InputType, raw: string, toNumber: string -> string): (v: Value)
    requires kind in {Text, Number, Date, Select}
    ensures kind != Number ==> v == Str(raw)
    ensures kind == Number && raw == "" ==> v == Str("")
    ensures kind == Number && raw != "" ==> v == Num(toNumber(raw))
    ensures !Nullish(v)
  {
    if kind == Number && raw != "" then Num(toNumber(raw)) else Str(raw)
  }

  /** A change is shown back by the control that reported it: text, date
      and select controls show exactly what was typed or chosen, and a
      number control shows "" for empty input and the parsed number
      otherwise. */
  lemma ControlShowsChange(kind: InputType, raw: string, toNumber: string -> string)
    requires kind in {Text, Number, Date, Select}
    ensures kind != Number || raw == "" ==>
      ControlValue(kind, ChangedValue(kind, raw, toNumber)) == Some(Str(raw))
    ensures kind == Number && raw != "" ==>
      ControlValue(kind, ChangedValue(kind, raw, toNumber)) == Some(Num(toNumber(raw)))
  {
  }

  /** A radio option is checked iff the value is exactly its value. */
  predicate RadioChecked(v: Value, option: Choice) {
    v == Str(option.value)
  }

  /** Choosing a radio option sets the value to exactly that option's value. */
  function RadioSelect(option: Choice): (v: Value)
    ensures RadioChecked(v, option)
  {
    Str(option.value)
  }

  /** After choosing an option, the checked options are exactly those that
      share its value. */
  lemma RadioSelectChecksOne(chosen: Choice, options: seq<Choice>)
    ensures forall i :: 0 <= i < |options| ==>
      (RadioChecked(RadioSelect(chosen), options[i]) <==> options[i].value == chosen.value)
  {
  }

  /** `Array.isArray(value) ? value.includes(o.value) : false`. */
  function CheckboxChecked(v: Value, option: Choice): (checked: bool)
    ensures checked <==> v.Arr? && Str(option.value) in v.items
  {
    match v
    case Arr(items) => Str(option.value) in items
    case _ => false
  }

  /** The elements of `[...(value || [])]`: a falsy value spreads to
      nothing, an array to its elements, a string to its characters; any
      other value is not iterable and throws. */
  function SpreadOrEmpty(v: Value): (r: Result<seq<Value>>)
    ensures !Truthy(v) ==> r == Ok([])
    ensures v.Arr? ==> r == Ok(v.items)
    ensures r.Err? <==> Truthy(v) && !v.Arr? && !v.Str?
  {
    if !Truthy(v) then Ok([])
    else match v
      case Arr(items) => Ok(items)
      case Str(s) => Ok(Characters(s))
      case _ => Err(TypeError)
  }

  /** A string spread into one-character strings. */
  function Characters(s: string): (cs: seq<Value>)
    ensures |cs| == |s|
    ensures forall i :: 0 <= i < |s| ==> cs[i] == Str([s[i]])
  {
    if s == "" then [] else [Str([s[0]])] + Characters(s[1..])
  }

  /** Ticking a checkbox: `[...(value || []), o.value]`. */
  function Tick(v: Value, option: Choice): (r: Result<Value>)
    ensures r.Ok? <==> SpreadOrEmpty(v).Ok?
    ensures r.Ok? ==>
      && r.value.Arr?
      && |r.value.items| > 0
      && r.value.items[|r.value.items| - 1] == Str(option.value)
      && r.value.items[..|r.value.items| - 1] == SpreadOrEmpty(v).value
  {
    match SpreadOrEmpty(v)
    case Ok(base) =>
      var items := base + [Str(option.value)];
      assert items[..|items| - 1] == base;
      Ok(Arr(items))
    case Err(e) => Err(e)
  }

  function Differs(option: Choice): Value -> bool {
    x => x != Str(option.value)
  }

  /** Unticking a checkbox: `(value || []).filter(v => v !== o.value)`;
      only arrays (and falsy values) have a `filter`. */
  function Untick(v: Value, option: Choice): (r: Result<Value>)
    ensures r.Ok? <==> !Truthy(v) || v.Arr?
    ensures !Truthy(v) ==> r == Ok(Arr([]))
    ensures v.Arr? ==>
      && r.Ok?
      && r.value.Arr?
      && forall x :: x in r.value.items <==> x in v.items && x != Str(option.value)
  {
    if !Truthy(v) then Ok(Arr([]))
    else match v
      case Arr(items) => Ok(Arr(Collections.Filter(items, Differs(option))))
      case _ => Err(TypeError)
  }

  /** The value a checkbox change reports: the option is checked in the
      reported value exactly when the box was ticked. */
  function CheckboxChange(v: Value, option: Choice, nowChecked: bool): (r: Result<Value>)
    ensures nowChecked ==> r == Tick(v, option)
    ensures !nowChecked ==> r == Untick(v, option)
    ensures r.Ok? ==> (CheckboxChecked(r.value, option) <==> nowChecked)
  {
    TickUntickChecked(v, option);
    if nowChecked then Tick(v, option) else Untick(v, option)
  }

  /** Ticking makes the option checked; unticking makes it unchecked. */
  lemma TickUntickChecked(v: Value, option: Choice)
    ensures Tick(v, option).Ok? ==> CheckboxChecked(Tick(v, option).value, option)
    ensures Untick(v, option).Ok? ==> !CheckboxChecked(Untick(v, option).value, option)
  {
    var r := Tick(v, option);
    if r.Ok? {
      assert r.value.items[|r.value.items| - 1] in r.value.items;
    }
  }

  /** Unticking an option that was just ticked on an array that did not hold
      it gives back the original array. */
  lemma UntickUndoesTick(items: seq<Value>, option: Choice)
    requires Str(option.value) !in items
    ensures Untick(Tick(Arr(items), option).value, option) == Ok(Arr(items))
  {
    var p := Differs(option);
    var ticked := items + [Str(option.value)];
    assert Tick(Arr(items), option) == Ok(Arr(ticked));
    forall i | 0 <= i < |items| ensures p(items[i]) {
      assert items[i] in items;
    }
    Collections.FilterAll(items, p);
    Collections.FilterAppend(items, [Str(option.value)], p);
    assert Collections.Filter([Str(option.value)], p) == [];
    assert Collections.Filter(ticked, p) == items;
  }

  /** Unticking removes every occurrence of the option and keeps the other
      elements in order: it distributes over any split of the array. */
  lemma UntickKeepsOrder(front: seq<Value>, back: seq<Value>, option: Choice)
    ensures Untick(Arr(front + back), option)
         == Ok(Arr(Untick(Arr(front), option).value.items + Untick(Arr(back), option).value.items))
  {
    Collections.FilterAppend(front, back, Differs(option));
  }
}

=== FILE: review.dfy ===
/** The read-only review page: it loads a submission, its answers and the
    questions they belong to, and formats each answer for display. */
module Review {
  import opened Types
  import Collections
  import Store
  import Editor

  /** `formatAnswer`: a truthy structured value is shown joined with ", "
      when it is an array and as JSON otherwise; without one, the text
      column is shown when non-empty, else a placeholder. `json` stands for
      `JSON.stringify`. */
  function FormatAnswer(row: AnswerRow, json: Value -> string): (t: string)
    ensures Truthy(row.json) && row.json.Arr? ==> t == JoinWith(ElementTexts(row.json.items), ", ")
    ensures Truthy(row.json) && !row.json.Arr? ==> t == json(row.json)
    ensures !Truthy(row.json) ==>
      t == (if row.text.Some? && row.text.value != "" then row.text.value else "No answer provided")
  {
    if Truthy(row.json) then
      match row.json
      case Arr(items) => JoinWith(ElementTexts(items), ", ")
      case _ => json(row.json)
    else if row.text.Some? && row.text.value != "" then row.text.value
    else "No answer provided"
  }

  /** The formatted answer is blank only for a structured value: an empty
      array (or one whose elements all print as nothing), or a value whose
      JSON text is empty. */
  lemma BlankOnlyForStructured(row: AnswerRow, json: Value -> string)
    ensures FormatAnswer(row, json) == "" ==> row.json.Arr? || json(row.json) == ""
  {
  }

  /** What the review shows for what the editor saved: a non-empty string
      comes back as itself, and an array of strings (a checkbox answer) as
      its elements joined with ", ". */
  lemma ReviewShowsSavedValue(sid: Sid, qid: Qid, v: Value, json: Value -> string)
    ensures v.Str? && v.s != "" ==> FormatAnswer(Editor.Payload(sid, qid, v, json), json) == v.s
    ensures v.Str? && v.s == "" ==> FormatAnswer(Editor.Payload(sid, qid, v, json), json) == "No answer provided"
    ensures v.Arr? && (forall i :: 0 <= i < |v.items| ==> v.items[i].Str?) ==>
      FormatAnswer(Editor.Payload(sid, qid, v, json), json)
        == JoinWith(seq(|v.items|, i requires 0 <= i < |v.items| => v.items[i].s), ", ")
  {
    var row := Editor.Payload(sid, qid, v, json);
    if v.Str? {
      assert row.json == Null && row.text == Some(v.s);
    } else if v.Arr? && (forall i :: 0 <= i < |v.items| ==> v.items[i].Str?) {
      assert row.json == v && Truthy(v);
      assert ElementTexts(v.items) == seq(|v.items|, i requires 0 <= i < |v.items| => v.items[i].s);
    }
  }

  /** The index of the first option carrying `value`, if any. */
  function FindOption(options: seq<Choice>, value: string): (r: Option<nat>)
    ensures r.Some? ==>
      && r.value < |options|
      && options[r.value].value == value
      && forall j :: 0 <= j < r.value ==> options[j].value != value
    ensures r.None? ==> forall j :: 0 <= j < |options| ==> options[j].value != value
  {
    if |options| == 0 then None
    else if options[0].value == value then Some(0)
    else match FindOption(options[1..], value)
      case None => None
      case Some(k) => Some(k + 1)
  }

  /** `getOptionLabel`: the label of the first option with the value, or
      the value itself when there are no options or none matches. */
  function OptionLabel(value: string, options: Option<seq<Choice>>): (caption: string)
    ensures options.None? ==> caption == value
    ensures options.Some? && (forall j :: 0 <= j < |options.value| ==> options.value[j].value != value)
            ==> caption == value
    ensures options.Some? && FindOption(options.value, value).Some? ==>
      caption == options.value[FindOption(options.value, value).value].caption
    ensures options.Some? && caption != value ==>
      exists i ::
        && 0 <= i < |options.value|
        && options.value[i].value == value
        && caption == options.value[i].caption
        && forall j :: 0 <= j < i ==> options.value[j].value != value
  {
    match options
    case None => value
    case Some(opts) =>
      match FindOption(opts, value)
      case None => value
      case Some(i) => opts[i].caption
  }

  /** When several options share a value, the first one's label wins. */
  lemma FirstMatchingLabelWins(value: string, front: seq<Choice>, c: Choice, back: seq<Choice>)
    requires forall j :: 0 <= j < |front| ==> front[j].value != value
    requires c.value == value
    ensures OptionLabel(value, Some(front + [c] + back)) == c.caption
  {
    var opts := front + [c] + back;
    assert opts[|front|] == c;
    forall j | 0 <= j < |front| ensures opts[j].value != value {
      assert opts[j] == front[j];
    }
  }

  function IdOf(q: Question): Qid {
    q.id
  }

  /** The answers the page renders: those whose question was found, in the
      order they were fetched. */
  function Rendered(answers: seq<AnswerRow>, questions: map<Qid, Question>): (shown: seq<AnswerRow>)
    ensures forall a :: a in shown <==> a in answers && a.questionId in questions
  {
    Collections.Filter(answers, (a: AnswerRow) => a.questionId in questions)
  }

  /** Rendering keeps fetched order: it distributes over any split. */
  lemma RenderedKeepsOrder(front: seq<AnswerRow>, back: seq<AnswerRow>, questions: map<Qid, Question>)
    ensures Rendered(front + back, questions) == Rendered(front, questions) + Rendered(back, questions)
  {
    Collections.FilterAppend(front, back, (a: AnswerRow) => a.questionId in questions);
  }

  datatype ReviewState = ReviewState(
    submission: Option<Submission>,
    answers: seq<AnswerRow>,
    questions: map<Qid, Question>,
    error: Option<string>)

  /** `fetchSubmission`: the submission, then its answers, then (only when
      there are answers) their questions, indexed by id. The first failure
      sets its message and stops; what was set before stays. */
  function Load(db: Store.Db, id: Sid, submissionOk: bool,
                answerRows: Option<seq<AnswerRow>>, questionRows: Option<seq<Question>>)
    : (r: ReviewState)
    ensures r.submission.None? <==> r.error == Some("Submission not found")
    ensures r.submission.Some? <==> submissionOk && id in db.submissions
    ensures r.error.None? <==>
      && submissionOk && id in db.submissions && answerRows.Some?
      && (|answerRows.value| == 0 || questionRows.Some?)
    ensures r.submission.Some? ==> r.submission.value == db.submissions[id]
    ensures r.submission.Some? ==> (answerRows.None? <==> r.error == Some("Failed to load answers"))
    ensures r.submission.Some? && answerRows.Some? && |answerRows.value| > 0 ==>
      (questionRows.None? <==> r.error == Some("Failed to load questions"))
    ensures r.error.None? ==> answerRows.Some? && r.answers == answerRows.value
    ensures r.error.None? && |r.answers| > 0 ==>
      questionRows.Some? && r.questions == Collections.IndexBy(questionRows.value, IdOf)
    ensures |r.answers| == 0 ==> r.questions == map[]
  {
    var none := ReviewState(None, [], map[], None);
    match Store.SelectSubmission(db, id, submissionOk)
    case Err(_) => none.(error := Some("Submission not found"))
    case Ok(sub) =>
      var s1 := none.(submission := Some(sub));
      match answerRows
      case None => s1.(error := Some("Failed to load answers"))
      case Some(rows) =>
        var s2 := s1.(answers := rows);
        if |rows| == 0 then s2
        else match questionRows
          case None => s2.(error := Some("Failed to load questions"))
          case Some(qs) => s2.(questions := Collections.IndexBy(qs, IdOf))
  }

  /** An answer whose question the fetch did not return is never rendered,
      and every answer whose question was returned is. */
  lemma OrphansSkipped(db: Store.Db, id: Sid, ok: bool, rows: seq<AnswerRow>, qs: seq<Question>)
    ensures
      var r := Load(db, id, ok, Some(rows), Some(qs));
      r.error.None? ==>
        forall a :: a in rows ==>
          (a in Rendered(r.answers, r.questions) <==> exists i :: 0 <= i < |qs| && qs[i].id == a.questionId)
  {
    var r := Load(db, id, ok, Some(rows), Some(qs));
    if r.error.None? && |rows| > 0 {
      Collections.IndexByKeys(qs, IdOf);
    }
  }
}

=== FILE: session.dfy ===
/** The survey page and its one question editor running together: the
    editor's signals drive the traversal, and every change of the page
    re-renders the editor with the current question and its recorded
    answer.

    The page renders its editor without a key, so moving between questions
    hands the same editor new props instead of mounting a fresh one. How
    the editor takes those props is a parameter: `AsWritten` is the
    answer-id sync of the source, `ByQuestion` resets on a change of
    question only. */
module Session {
  import opened Types
  import Store
  import Editor
  import Traversal

  datatype World = World(db: Store.Db, page: Traversal.Page, editor: Editor.Editor)

  datatype Sync = AsWritten | ByQuestion

  datatype Event =
    | Type(v: Value)                     // the user changes the value
    | Fire                               // the debounce timer expires
    | Flicker                            // a "saved -> idle" timer expires
    | ClickNext(updateOk: bool)          // the Next button
    | ClickPrev                          // the Previous button
    | Press(key: string, updateOk: bool) // a key press in the control
    | Resolve(i: nat, net: Editor.Net)   // in-flight save `i` settles

  /** The page and editor agree: while on the survey the editor is mounted
      on the current question; once the page has left for the review the
      editor is gone. */
  ghost predicate Coherent(w: World) {
    && (w.page.location == Traversal.OnSurvey ==>
          && Traversal.OnAQuestion(w.page)
          && w.editor.mounted
          && w.editor.question == w.page.questions[w.page.index])
    && (w.page.location.AtReview? ==> !w.editor.mounted)
  }

  /** A new traversal of a non-empty survey, its editor mounted on the first
      question with no submission and no answer. */
  function Begin(questions: seq<Question>, db: Store.Db): (w: World)
    requires |questions| > 0
    ensures Coherent(w)
    ensures w.editor.local == Str("") && w.page.active.None?
  {
    World(db, Traversal.Start(questions), Editor.Mount(questions[0], None, None))
  }

  /** The parent's handler for an editor signal. */
  function Deliver(w: World, sig: Editor.Signal, updateOk: bool): (r: World)
    ensures r.editor == w.editor
    ensures sig == Editor.Quiet ==> r == w
    ensures sig == Editor.GoNext ==> (r.page, r.db) == Traversal.Next(w.page, w.db, updateOk)
    ensures sig == Editor.GoPrev ==> r == w.(page := Traversal.Prev(w.page))
    ensures sig.Persisted? ==>
      && r.db == w.db
      && r.page.index == w.page.index && r.page.location == w.page.location
      && r.page.questions == w.page.questions
      && sig.row.questionId in r.page.answers
      && r.page.answers[sig.row.questionId] == sig.row
      && r.page.active == Some(sig.sid)
  {
    match sig
    case Quiet => w
    case GoNext =>
      var (p, db) := Traversal.Next(w.page, w.db, updateOk);
      w.(page := p, db := db)
    case GoPrev => w.(page := Traversal.Prev(w.page))
    case Persisted(row, sid) => w.(page := Traversal.Saved(w.page, row, sid))
  }

  /** The page re-renders: on a question the editor receives the question and
      its recorded answer; after leaving for the review it unmounts. */
  function Rerender(w: World, sync: Sync): (r: World)
    ensures r.db == w.db && r.page == w.page
    ensures w.page.location == Traversal.OnSurvey && Traversal.OnAQuestion(w.page) ==>
      && r.editor.question == w.page.questions[w.page.index]
      && r.editor.mounted == w.editor.mounted
      && r.editor.flights == w.editor.flights
    ensures w.page.location.AtReview? ==> !r.editor.mounted
  {
    if w.page.location == Traversal.OnSurvey && 0 <= w.page.index < |w.page.questions| then
      var q := w.page.questions[w.page.index];
      var answer := Traversal.Lookup(w.page.answers, q.id);
      w.(editor := match sync
                   case AsWritten => Editor.Resync(w.editor, q, answer)
                   case ByQuestion => Editor.Follow(w.editor, q, answer))
    else w.(editor := Editor.Unmount(w.editor))
  }

  /** One event. `json` stands for `JSON.stringify`. */
  function Step(w: World, ev: Event, json: Value -> string, sync: Sync): World {
    match ev
    case Type(v) => w.(editor := Editor.Edit(w.editor, v))
    case Fire => w.(editor := Editor.TimerFire(w.editor))
    case Flicker => w.(editor := Editor.FlickerFire(w.editor))
    case ClickNext(ok) =>
      var (e, sig) := Editor.NextClick(w.editor);
      Rerender(Deliver(w.(editor := e), sig, ok), sync)
    case ClickPrev =>
      var (e, sig) := Editor.PrevClick(w.editor);
      Rerender(Deliver(w.(editor := e), sig, true), sync)
    case Press(key, ok) =>
      var (e, sig) := Editor.KeyDown(w.editor, key);
      Rerender(Deliver(w.(editor := e), sig, ok), sync)
    case Resolve(i, net) =>
      if i < |w.editor.flights| then
        var (e, db, sig) := Editor.Settle(w.editor, i, net, w.db, json);
        Rerender(Deliver(World(db, w.page, e), sig, true), sync)
      else w
  }

  function Run(w: World, evs: seq<Event>, json: Value -> string, sync: Sync): World
    decreases |evs|
  {
    if |evs| == 0 then w else Run(Step(w, evs[0], json, sync), evs[1..], json, sync)
  }

  /** Every event keeps the page and its editor in agreement. */
  lemma StepKeepsCoherent(w: World, ev: Event, json: Value -> string, sync: Sync)
    requires Coherent(w)
    ensures Coherent(Step(w, ev, json, sync))
  {
    match ev
    case Resolve(i, net) =>
      if i < |w.editor.flights| {
        var (e, db, sig) := Editor.Settle(w.editor, i, net, w.db, json);
        assert !w.editor.mounted ==> sig == Editor.Quiet;
      }
    case _ =>
  }

  /** Any run of events keeps the page and its editor in agreement. */
  lemma {:induction false} RunKeepsCoherent(w: World, evs: seq<Event>, json: Value -> string, sync: Sync)
    requires Coherent(w)
    ensures Coherent(Run(w, evs, json, sync))
    decreases |evs|
  {
    if |evs| > 0 {
      StepKeepsCoherent(w, evs[0], json, sync);
      RunKeepsCoherent(Step(w, evs[0], json, sync), evs[1..], json, sync);
    }
  }

  // ---------------------------------------------------------------------
  // The prop sync as written

  /** The question shown by the page. */
  function Shown(w: World): Question
    requires Traversal.OnAQuestion(w.page)
  {
    w.page.questions[w.page.index]
  }

  const Q1: Question := Question("q1", "intake", 1, "Name?", None, Text, None)
  const Q2: Question := Question("q2", "intake", 2, "City?", None, Text, None)
  const NoJson: Value -> string := (v: Value) => ""

  /** Typing "A" on the first question and pressing Next leaves "A" in the
      editor on the second question, which has no answer of its own: the
      answer id is absent before and after, so the sync does not fire. A
      second Next saves "A" as the second question's answer. */
  lemma CarryOverAsWritten()
    ensures
      var w0 := Begin([Q1, Q2], Store.Db(map[], map[]));
      var w1 := Run(w0, [Type(Str("A")), ClickNext(true)], NoJson, AsWritten);
      && w1.page.index == 1
      && Shown(w1) == Q2
      && Q2.id !in w1.page.answers
      && w1.editor.local == Str("A")
      && InitialValue(None) == Str("")
      && var w2 := Step(w1, ClickNext(true), NoJson, AsWritten);
      && w2.editor.flights[|w2.editor.flights| - 1] == Editor.Snapshot(Q2, Str("A"), None)
  {
    var w0 := Begin([Q1, Q2], Store.Db(map[], map[]));
    var wa := Step(w0, Type(Str("A")), NoJson, AsWritten);
    assert wa.editor.local == Str("A");
    var wb := Step(wa, ClickNext(true), NoJson, AsWritten);
    assert wb.page.index == 1;
    assert wb.editor.local == Str("A");
    assert Run(w0, [Type(Str("A")), ClickNext(true)], NoJson, AsWritten) == wb;
  }

  /** The first successful save of a question records an answer with a new
      id; the re-render sees the id change and resets the editor to the
      saved value, discarding what was typed while the save was in flight. */
  lemma ClobberAsWritten()
    ensures
      var net := Editor.Net(Some("u"), "s1", true, "a1", true);
      var w0 := Begin([Q1, Q2], Store.Db(map[], map[]));
      var w1 := Run(w0, [Type(Str("A")), Fire, Type(Str("AB"))], NoJson, AsWritten);
      && w1.editor.local == Str("AB")
      && |w1.editor.flights| == 1
      && var w2 := Step(w1, Resolve(0, net), NoJson, AsWritten);
      && Shown(w2) == Q1
      && w2.editor.local == Str("A")
      && w2.editor.timer == Some(Editor.Snapshot(Q1, Str("A"), Some("s1")))
  {
    TypedDuringSave();
    SaveReportResets();
  }

  /** The world after typing "A", letting the timer fire and typing "AB". */
  const TypedWorld: World :=
    World(Store.Db(map[], map[]), Traversal.Start([Q1, Q2]),
          Editor.Editor(Q1, None, Str("AB"), Editor.Saving, None,
                        Some(Editor.Snapshot(Q1, Str("AB"), None)),
                        [Editor.Snapshot(Q1, Str("A"), None)], 0, true))

  lemma TypedDuringSave()
    ensures Run(Begin([Q1, Q2], Store.Db(map[], map[])), [Type(Str("A")), Fire, Type(Str("AB"))], NoJson, AsWritten)
         == TypedWorld
  {
    var w0 := Begin([Q1, Q2], Store.Db(map[], map[]));
    var evs := [Type(Str("A")), Fire, Type(Str("AB"))];
    var wa := Step(w0, Type(Str("A")), NoJson, AsWritten);
    var wb := Step(wa, Fire, NoJson, AsWritten);
    var wc := Step(wb, Type(Str("AB")), NoJson, AsWritten);
    assert wc == TypedWorld;
    assert evs[1..] == [Fire, Type(Str("AB"))];
    assert evs[1..][1..] == [Type(Str("AB"))];
  }

  lemma SaveReportResets()
    ensures
      var w2 := Step(TypedWorld, Resolve(0, Editor.Net(Some("u"), "s1", true, "a1", true)), NoJson, AsWritten);
      && Traversal.OnAQuestion(w2.page)
      && Shown(w2) == Q1
      && w2.editor.local == Str("A")
      && w2.editor.timer == Some(Editor.Snapshot(Q1, Str("A"), Some("s1")))
  {
    var net := Editor.Net(Some("u"), "s1", true, "a1", true);
    var row := AnswerRow(Some("a1"), "s1", "q1", Some("A"), Null);
    FirstReportOfTyped();
    ReportResetsAsWritten(TypedWorld, 0, net, NoJson);
    assert InitialValue(Some(row)) == Str("A");
  }

  /** The typed save settles as the first answer of question 1. */
  lemma FirstReportOfTyped()
    ensures
      var r := Editor.Settle(TypedWorld.editor, 0, Editor.Net(Some("u"), "s1", true, "a1", true),
                             TypedWorld.db, NoJson);
      r.2 == Editor.Persisted(AnswerRow(Some("a1"), "s1", "q1", Some("A"), Null), "s1")
  {
    var s := TypedWorld.editor.flights[0];
    assert s == Editor.Snapshot(Q1, Str("A"), None);
    var ens := Editor.EnsureSubmission(None, "intake", Some("u"), TypedWorld.db, "s1", true);
    assert ens == Ok((Store.Db(map["s1" := Submission("s1", "intake", "u", InProgress)], map[]), "s1"));
    assert Editor.Payload("s1", "q1", Str("A"), NoJson) == AnswerRow(None, "s1", "q1", Some("A"), Null);
  }

  /** As written, the report of a save resets an editor that had not yet
      synced an answer id to the reported row. */
  lemma ReportResetsAsWritten(w: World, i: nat, net: Editor.Net, json: Value -> string)
    requires Coherent(w) && w.page.location == Traversal.OnSurvey
    requires i < |w.editor.flights| && w.editor.answerKey.None?
    requires
      var sig := Editor.Settle(w.editor, i, net, w.db, json).2;
      sig.Persisted? && sig.row.id.Some? && sig.row.questionId == w.editor.question.id
    ensures
      var sig := Editor.Settle(w.editor, i, net, w.db, json).2;
      Step(w, Resolve(i, net), json, AsWritten).editor.local == InitialValue(Some(sig.row))
  {
    var (e, db, sig) := Editor.Settle(w.editor, i, net, w.db, json);
    var wd := Deliver(World(db, w.page, e), sig, true);
    assert Traversal.Lookup(wd.page.answers, Shown(wd).id) == Some(sig.row);
  }

  // ---------------------------------------------------------------------
  // The prop sync by question

  /** Moving to a different question shows that question's recorded answer,
      or the empty value when it has none. */
  lemma MovingShowsRecordedAnswer(w: World, ev: Event, json: Value -> string)
    requires Coherent(w)
    ensures
      var r := Step(w, ev, json, ByQuestion);
      r.page.location == Traversal.OnSurvey && Shown(r).id != w.editor.question.id ==>
        r.editor.local == InitialValue(Traversal.Lookup(r.page.answers, Shown(r).id))
  {
    StepKeepsCoherent(w, ev, json, ByQuestion);
  }

  /** A save reporting back never changes the value being edited. */
  lemma ReportKeepsEdits(w: World, i: nat, net: Editor.Net, json: Value -> string)
    requires Coherent(w)
    ensures Step(w, Resolve(i, net), json, ByQuestion).editor.local == w.editor.local
  {
  }

  /** With the corrected sync, the carry-over run shows the empty value on
      the second question. */
  lemma NoCarryOverByQuestion()
    ensures
      var w0 := Begin([Q1, Q2], Store.Db(map[], map[]));
      var w1 := Run(w0, [Type(Str("A")), ClickNext(true)], NoJson, ByQuestion);
      && Shown(w1) == Q2
      && w1.editor.local == Str("")
  {
    var w0 := Begin([Q1, Q2], Store.Db(map[], map[]));
    var wa := Step(w0, Type(Str("A")), NoJson, ByQuestion);
    var wb := Step(wa, ClickNext(true), NoJson, ByQuestion);
    assert Run(w0, [Type(Str("A")), ClickNext(true)], NoJson, ByQuestion) == wb;
  }
}

=== FILE: store.dfy ===
/** The data service as the client sees it: a submissions table keyed by id
    and an answers table whose natural key is (submission id, question id).
    Each operation is atomic; `ok == false` stands for the service
    returning an error, and ids the service generates are inputs. */
module Store {
  import opened Types
  import Collections

  datatype Db = Db(
    submissions: map<Sid, Submission>,
    answers: map<(Sid, Qid), AnswerRow>)

  /** Rows sit under their own key, every stored answer has an id, and every
      answer references an existing submission (the foreign key). */
  ghost predicate WellKeyed(db: Db) {
    && (forall s :: s in db.submissions ==> db.submissions[s].id == s)
    && (forall k :: k in db.answers ==>
          && db.answers[k].submissionId == k.0
          && db.answers[k].questionId == k.1
          && db.answers[k].id.Some?
          && k.0 in db.submissions)
  }

  predicate HasAnswers(db: Db, sid: Sid) {
    exists k :: k in db.answers && k.0 == sid
  }

  /** `select * from submissions where id = ? .single()`. */
  function SelectSubmission(db: Db, id: Sid, ok: bool): (r: Result<Submission>)
    ensures r.Ok? <==> ok && id in db.submissions
    ensures r.Ok? ==> r.value == db.submissions[id]
    ensures ok && id !in db.submissions ==> r == Err(NotFound)
  {
    if !ok then Err(NetworkFailure)
    else if id !in db.submissions then Err(NotFound)
    else Ok(db.submissions[id])
  }

  /** `insert into submissions (survey_id, user_id, status = 'in_progress')`;
      the service picks `newId` as the new primary key. */
  function InsertSubmission(db: Db, newId: Sid, surveyId: string, userId: Uid, ok: bool)
    : (r: Result<(Db, Sid)>)
    ensures r.Ok? <==> ok && newId !in db.submissions
    ensures ok && newId in db.submissions ==> r == Err(DuplicateKey)
    ensures r.Ok? ==>
      var (db', sid) := r.value;
      && sid == newId
      && db'.submissions.Keys == db.submissions.Keys + {sid}
      && |db'.submissions| == |db.submissions| + 1
      && db'.submissions[sid] == Submission(sid, surveyId, userId, InProgress)
      && (forall s :: s in db.submissions ==> db'.submissions[s] == db.submissions[s])
      && db'.answers == db.answers
  {
    if !ok then Err(NetworkFailure)
    else if newId in db.submissions then Err(DuplicateKey)
    else
      var db' := db.(submissions := db.submissions[newId := Submission(newId, surveyId, userId, InProgress)]);
      assert db'.submissions.Keys == db.submissions.Keys + {newId};
      Ok((db', newId))
  }

  /** `update submissions set status = ? where id = ?`: matching no row is
      not an error. */
  function SetStatus(db: Db, id: Sid, status: Status, ok: bool): (r: Result<Db>)
    ensures r.Ok? <==> ok
    ensures r.Ok? ==>
      && r.value.submissions.Keys == db.submissions.Keys
      && r.value.answers == db.answers
      && (id in db.submissions ==> r.value.submissions[id] == db.submissions[id].(status := status))
      && (forall s :: s in db.submissions && s != id ==> r.value.submissions[s] == db.submissions[s])
  {
    if !ok then Err(NetworkFailure)
    else if id in db.submissions then
      Ok(db.(submissions := db.submissions[id := db.submissions[id].(status := status)]))
    else Ok(db)
  }

  /** The key an answer row is stored under. */
  function KeyOf(row: AnswerRow): (Sid, Qid) {
    (row.submissionId, row.questionId)
  }

  /** `upsert into answers ... on conflict (submission_id, question_id) do
      update`: a new pair gets the row with the service-chosen id `newId`,
      an existing pair keeps its id and takes the new columns. Returns the
      stored row, as `.select().single()` does. */
  function Upsert(db: Db, row: AnswerRow, newId: AnswerId, ok: bool): (r: Result<(Db, AnswerRow)>)
    ensures r.Ok? <==> ok && row.submissionId in db.submissions
    ensures ok && row.submissionId !in db.submissions ==> r == Err(ForeignKey)
    ensures r.Ok? ==>
      var (db', stored) := r.value;
      var key := KeyOf(row);
      && db'.submissions == db.submissions
      && db'.answers.Keys == db.answers.Keys + {key}
      && db'.answers[key] == stored
      && stored.submissionId == row.submissionId
      && stored.questionId == row.questionId
      && stored.text == row.text
      && stored.json == row.json
      && stored.id == (if key in db.answers then db.answers[key].id else Some(newId))
      && (forall k :: k in db.answers && k != key ==> db'.answers[k] == db.answers[k])
  {
    if !ok then Err(NetworkFailure)
    else if row.submissionId !in db.submissions then Err(ForeignKey)
    else
      var key := KeyOf(row);
      var stored := row.(id := if key in db.answers then db.answers[key].id else Some(newId));
      Ok((db.(answers := db.answers[key := stored]), stored))
  }

  /** `delete from answers where submission_id = ?`. */
  function DeleteAnswersOf(db: Db, sid: Sid, ok: bool): (r: Result<Db>)
    ensures r.Ok? <==> ok
    ensures r.Ok? ==>
      && r.value.submissions == db.submissions
      && !HasAnswers(r.value, sid)
      && (forall k :: k in db.answers && k.0 != sid ==> k in r.value.answers && r.value.answers[k] == db.answers[k])
      && (forall k :: k in r.value.answers ==> k in db.answers)
  {
    if !ok then Err(NetworkFailure)
    else Ok(db.(answers := map k | k in db.answers && k.0 != sid :: db.answers[k]))
  }

  /** `delete from submissions where id = ?`: refused while answers still
      reference the submission; matching no row is not an error. */
  function DeleteSubmission(db: Db, sid: Sid, ok: bool): (r: Result<Db>)
    ensures r.Ok? <==> ok && !HasAnswers(db, sid)
    ensures ok && HasAnswers(db, sid) ==> r == Err(ForeignKey)
    ensures r.Ok? ==>
      && r.value.answers == db.answers
      && r.value.submissions.Keys == db.submissions.Keys - {sid}
      && (forall s :: s in r.value.submissions ==> r.value.submissions[s] == db.submissions[s])
  {
    if !ok then Err(NetworkFailure)
    else if HasAnswers(db, sid) then Err(ForeignKey)
    else Ok(db.(submissions := map s | s in db.submissions && s != sid :: db.submissions[s]))
  }

  /** The answers stored for one submission, indexed by question id. */
  function AnswersOf(db: Db, sid: Sid): (m: map<Qid, AnswerRow>)
    ensures forall q :: q in m <==> (sid, q) in db.answers
    ensures forall q :: q in m ==> m[q] == db.answers[(sid, q)]
  {
    map q | q in (set k | k in db.answers && k.0 == sid :: k.1) :: db.answers[(sid, q)]
  }

  lemma UpsertKeepsWellKeyed(db: Db, row: AnswerRow, newId: AnswerId, ok: bool)
    requires WellKeyed(db)
    ensures Upsert(db, row, newId, ok).Ok? ==> WellKeyed(Upsert(db, row, newId, ok).value.0)
  {
  }

  /** Saving the same (submission, question) pair twice leaves one row for
      the pair: it has the id of the first save and the columns of the
      second, and no other row changes. */
  lemma UpsertTwiceOneRow(db: Db, first: AnswerRow, second: AnswerRow,
                          newId1: AnswerId, newId2: AnswerId)
    requires KeyOf(first) == KeyOf(second)
    requires Upsert(db, first, newId1, true).Ok?
    ensures
      var (db1, r1) := Upsert(db, first, newId1, true).value;
      var r := Upsert(db1, second, newId2, true);
      && r.Ok?
      && r.value.0.answers.Keys == db.answers.Keys + {KeyOf(first)}
      && |r.value.0.answers| == |db.answers| + (if KeyOf(first) in db.answers then 0 else 1)
      && r.value.1.id == r1.id
      && r.value.1.text == second.text
      && r.value.1.json == second.json
      && (forall k :: k in db.answers && k != KeyOf(first) ==> r.value.0.answers[k] == db.answers[k])
  {
    var key := KeyOf(first);
    var (db1, r1) := Upsert(db, first, newId1, true).value;
    var db2 := Upsert(db1, second, newId2, true).value.0;
    if key in db.answers {
      assert db2.answers.Keys == db.answers.Keys;
    } else {
      assert db2.answers.Keys == db.answers.Keys + {key};
    }
  }

  /** Repeating a save with the same row changes nothing further and
      returns the same stored row. */
  lemma UpsertIdempotent(db: Db, row: AnswerRow, newId1: AnswerId, newId2: AnswerId)
    requires Upsert(db, row, newId1, true).Ok?
    ensures
      var (db1, stored) := Upsert(db, row, newId1, true).value;
      Upsert(db1, row, newId2, true) == Ok((db1, stored))
  {
    var (db1, stored) := Upsert(db, row, newId1, true).value;
    assert db1.answers[KeyOf(row) := stored] == db1.answers;
  }

  /** Deleting a submission's answers first lets the submission go; deleting
      the submission first is refused while it has answers. */
  lemma DeleteOrder(db: Db, sid: Sid)
    ensures HasAnswers(db, sid) ==> DeleteSubmission(db, sid, true) == Err(ForeignKey)
    ensures
      var db1 := DeleteAnswersOf(db, sid, true).value;
      && DeleteSubmission(db1, sid, true).Ok?
      && sid !in DeleteSubmission(db1, sid, true).value.submissions
  {
  }

  /** The rows returned by `select * from answers where submission_id = ?`
      are exactly the stored rows of that submission. */
  ghost predicate ListsAnswersOf(db: Db, sid: Sid, rows: seq<AnswerRow>) {
    && (forall i :: 0 <= i < |rows| ==>
          && rows[i].submissionId == sid
          && KeyOf(rows[i]) in db.answers
          && db.answers[KeyOf(rows[i])] == rows[i])
    && (forall k :: k in db.answers && k.0 == sid ==> db.answers[k] in rows)
  }

  function QuestionOf(row: AnswerRow): Qid {
    row.questionId
  }

  /** Indexing a faithful listing by question id recovers the stored answers
      of the submission. */
  lemma IndexedListingIsAnswersOf(db: Db, sid: Sid, rows: seq<AnswerRow>)
    requires WellKeyed(db)
    requires ListsAnswersOf(db, sid, rows)
    ensures Collections.IndexBy(rows, QuestionOf) == AnswersOf(db, sid)
  {
    var m := Collections.IndexBy(rows, QuestionOf);
    var a := AnswersOf(db, sid);
    forall q | q in a ensures q in m {
      var row := db.answers[(sid, q)];
      var i :| 0 <= i < |rows| && rows[i] == row;
      assert QuestionOf(rows[i]) == q;
    }
    forall q | q in m ensures q in a && m[q] == a[q] {
      var i :| Collections.IsLastWithKey(rows, QuestionOf, i, q) && m[q] == rows[i];
      assert KeyOf(rows[i]) == (sid, q);
    }
    assert m.Keys == a.Keys;
  }
}

=== FILE: traversal.dfy ===
/** The survey page: it walks the question list one question at a time,
    keeps the last persisted answer per question, holds the active
    submission id, resumes or forks a submission from the `edit` and
    `continue` query parameters, and completes the submission after the
    last question. */
module Traversal {
  import opened Types
  import Store
  import Collections

  datatype Location = OnSurvey | AtReview(sid: Sid)

  datatype Page = Page(
    questions: seq<Question>,      // the survey's questions, in display order
    index: int,                    // the current question
    answers: map<Qid, AnswerRow>,  // last persisted answer per question
    active: Option<Sid>,           // the active submission
    location: Location)

  /** The `edit` and `continue` query parameters. */
  datatype Params = Params(edit: Option<string>, cont: Option<string>)

  /** The service outcomes of a resume: whether the submission fetch and
      the fork insert succeed, the id a fork gets, and the fetched answer
      rows (None when that fetch fails). */
  datatype LoadNet = LoadNet(fetchOk: bool, newSid: Sid, insertOk: bool,
                             rows: Option<seq<AnswerRow>>)

  /** A query parameter is used only when present and non-empty. */
  predicate Given(p: Option<string>) {
    p.Some? && p.value != ""
  }

  function Start(questions: seq<Question>): (p: Page)
    ensures p.index == 0 && p.answers == map[] && p.active.None? && p.location == OnSurvey
  {
    Page(questions, 0, map[], None, OnSurvey)
  }

  /** The submission a resume loads: `edit || continue`. */
  function Target(params: Params): (t: Sid)
    requires Given(params.edit) || Given(params.cont)
    ensures Given(params.edit) ==> t == params.edit.value
    ensures !Given(params.edit) ==> t == params.cont.value
  {
    if Given(params.edit) then params.edit.value else params.cont.value
  }

  /** The resume forks: `edit` names an existing completed submission. */
  predicate Forks(params: Params, db: Store.Db) {
    && Given(params.edit)
    && params.edit.value in db.submissions
    && db.submissions[params.edit.value].status == Completed
  }

  /** The resume gets as far as adopting a submission id: the target is
      fetched and, when it is forked, the fork is inserted. */
  predicate Adopts(params: Params, db: Store.Db, net: LoadNet) {
    && (Given(params.edit) || Given(params.cont))
    && net.fetchOk
    && Target(params) in db.submissions
    && (Forks(params, db) ==> net.insertOk && net.newSid !in db.submissions)
  }

  /** `loadExistingAnswers`. Returns the page, the store and whether the
      "starting fresh" alert was shown. Each step that fails stops the
      resume but keeps what earlier steps set. */
  function LoadExisting(p: Page, params: Params, db: Store.Db, net: LoadNet)
    : (r: (Page, Store.Db, bool))
    ensures r.0.index == p.index && r.0.questions == p.questions && r.0.location == p.location
    ensures !Given(params.edit) && !Given(params.cont) ==> r == (p, db, false)
    ensures r.1.answers == db.answers
    ensures (Given(params.edit) || Given(params.cont)) ==>
      (r.2 <==>
         || !net.fetchOk
         || Target(params) !in db.submissions
         || (&& Given(params.edit)
             && db.submissions[Target(params)].status == Completed
             && (!net.insertOk || net.newSid in db.submissions))
         || net.rows.None?)
    ensures r.2 ==> r.0.answers == p.answers
    ensures (Given(params.edit) || Given(params.cont)) && !r.2 ==>
      && net.rows.Some?
      && r.0.answers == Collections.IndexBy(net.rows.value, Store.QuestionOf)
      && r.0.active.Some?
    ensures r.0.answers != p.answers ==>
      && net.rows.Some?
      && r.0.answers == Collections.IndexBy(net.rows.value, Store.QuestionOf)
    ensures !Adopts(params, db, net) ==> r.0.active == p.active && r.1 == db
    ensures Adopts(params, db, net) && !Forks(params, db) ==>
      r.0.active == Some(db.submissions[Target(params)].id) && r.1 == db
    ensures Adopts(params, db, net) && Forks(params, db) ==>
      var orig := db.submissions[Target(params)];
      && net.newSid !in db.submissions
      && r.0.active == Some(net.newSid)
      && r.1 == db.(submissions := db.submissions[net.newSid :=
                      Submission(net.newSid, orig.surveyId, orig.userId, InProgress)])
  {
    if !Given(params.edit) && !Given(params.cont) then (p, db, false)
    else
      var target := Target(params);
      match Store.SelectSubmission(db, target, net.fetchOk)
      case Err(_) => (p, db, true)
      case Ok(sub) =>
        var adopted: Result<(Store.Db, Sid)> :=
          if Given(params.edit) && sub.status == Completed
          then Store.InsertSubmission(db, net.newSid, sub.surveyId, sub.userId, net.insertOk)
          else Ok((db, sub.id));
        match adopted
        case Err(_) => (p, db, true)
        case Ok((db1, sid)) =>
          var p1 := p.(active := Some(sid));
          match net.rows
          case None => (p1, db1, true)
          case Some(rows) => (p1.(answers := Collections.IndexBy(rows, Store.QuestionOf)), db1, false)
  }

  /** Resuming with `continue` adopts the given id and creates nothing. */
  lemma ContinueAdoptsId(p: Page, id: Sid, db: Store.Db, net: LoadNet)
    requires Store.WellKeyed(db)
    requires net.fetchOk && id in db.submissions
    ensures var r := LoadExisting(p, Params(None, Some(id)), db, net);
      r.0.active == Some(id) && r.1 == db
  {
  }

  /** Editing a completed submission never changes it: a new in-progress
      submission for the same survey and user is created and adopted. */
  lemma EditForksCompleted(p: Page, params: Params, db: Store.Db, net: LoadNet)
    requires Store.WellKeyed(db)
    requires Given(params.edit) && net.fetchOk && net.insertOk
    requires params.edit.value in db.submissions
    requires db.submissions[params.edit.value].status == Completed
    requires net.newSid !in db.submissions
    ensures
      var r := LoadExisting(p, params, db, net);
      var orig := db.submissions[params.edit.value];
      && r.0.active == Some(net.newSid)
      && net.newSid != orig.id
      && r.1.submissions[params.edit.value] == orig
      && r.1.submissions[net.newSid] == Submission(net.newSid, orig.surveyId, orig.userId, InProgress)
  {
  }

  /** The answers a resume shows are those stored for the submission named
      in the query, even when a fork was adopted instead. */
  lemma ResumeShowsTargetAnswers(p: Page, params: Params, db: Store.Db, net: LoadNet)
    requires Store.WellKeyed(db)
    requires Given(params.edit) || Given(params.cont)
    requires net.rows.Some? && Store.ListsAnswersOf(db, Target(params), net.rows.value)
    ensures var r := LoadExisting(p, params, db, net);
      !r.2 ==> r.0.answers == Store.AnswersOf(db, Target(params))
  {
    Store.IndexedListingIsAnswersOf(db, Target(params), net.rows.value);
  }

  /** `completeSurvey`: without an active submission nothing happens;
      otherwise the submission is marked completed, and only a successful
      update moves on to the review page. */
  function Complete(p: Page, db: Store.Db, updateOk: bool): (r: (Page, Store.Db))
    ensures p.active.None? ==> r == (p, db)
    ensures p.active.Some? && !updateOk ==> r == (p, db)
    ensures p.active.Some? && updateOk ==>
      var sid := p.active.value;
      && r.0 == p.(location := AtReview(sid))
      && r.1.answers == db.answers
      && r.1.submissions.Keys == db.submissions.Keys
      && (sid in db.submissions ==> r.1.submissions[sid] == db.submissions[sid].(status := Completed))
      && (forall s :: s in db.submissions && s != sid ==> r.1.submissions[s] == db.submissions[s])
  {
    match p.active
    case None => (p, db)
    case Some(sid) =>
      match Store.SetStatus(db, sid, Completed, updateOk)
      case Err(_) => (p, db)
      case Ok(db1) => (p.(location := AtReview(sid)), db1)
  }

  /** `handleNext`: advance while not on the last question, otherwise
      complete. Once the page has left for the review it handles nothing. */
  function Next(p: Page, db: Store.Db, updateOk: bool): (r: (Page, Store.Db))
    ensures p.location.AtReview? ==> r == (p, db)
    ensures p.location == OnSurvey && p.index < |p.questions| - 1 ==>
      r == (p.(index := p.index + 1), db)
    ensures p.location == OnSurvey && p.index >= |p.questions| - 1 ==>
      r == Complete(p, db, updateOk)
    ensures r.0.index <= (if p.index < |p.questions| - 1 then |p.questions| - 1 else p.index)
  {
    if p.location.AtReview? then (p, db)
    else if p.index < |p.questions| - 1 then (p.(index := p.index + 1), db)
    else Complete(p, db, updateOk)
  }

  /** `handlePrev`: go back unless on the first question. */
  function Prev(p: Page): (r: Page)
    ensures p.index > 0 ==> r == p.(index := p.index - 1)
    ensures p.index <= 0 ==> r == p
  {
    if p.index > 0 then p.(index := p.index - 1) else p
  }

  /** `handleSaved`: record the persisted row under its question and adopt
      the submission id it was saved into. */
  function Saved(p: Page, row: AnswerRow, sid: Sid): (r: Page)
    ensures row.questionId in r.answers && r.answers[row.questionId] == row
    ensures forall q :: q in p.answers && q != row.questionId ==> q in r.answers && r.answers[q] == p.answers[q]
    ensures r.answers.Keys == p.answers.Keys + {row.questionId}
    ensures r.active == Some(sid)
    ensures r.index == p.index && r.questions == p.questions && r.location == p.location
  {
    p.(answers := p.answers[row.questionId := row], active := Some(sid))
  }

  /** The effect that sends a finished traversal to the review page: it
      needs a non-empty survey, an index past the end and an active id. */
  function Redirect(p: Page): (r: Page)
    ensures r.location != p.location <==>
      |p.questions| > 0 && p.index >= |p.questions| && p.active.Some? && p.location != AtReview(p.active.value)
    ensures |p.questions| > 0 && p.index >= |p.questions| && p.active.Some? ==>
      r.location == AtReview(p.active.value)
    ensures r == p.(location := r.location)
  {
    if |p.questions| > 0 && p.index >= |p.questions| && p.active.Some? then
      p.(location := AtReview(p.active.value))
    else p
  }

  /** What the page renders. */
  datatype View =
    | Spinner
    | ErrorPanel
    | EmptyState
    | Asking(question: Question, answer: Option<AnswerRow>)
    | HeaderOnly

  function Lookup(answers: map<Qid, AnswerRow>, q: Qid): Option<AnswerRow> {
    if q in answers then Some(answers[q]) else None
  }

  /** The page's render: loading first, then errors, then the empty survey,
      then the editor for the current question if there is one. */
  function Render(p: Page, loading: bool, loadingAnswers: bool, failed: bool): (v: View)
    ensures loading || loadingAnswers ==> v == Spinner
    ensures v.Asking? <==> !loading && !loadingAnswers && !failed && 0 <= p.index < |p.questions|
    ensures v.Asking? ==>
      && v.question == p.questions[p.index]
      && v.answer == Lookup(p.answers, p.questions[p.index].id)
    ensures v == EmptyState <==> !loading && !loadingAnswers && !failed && |p.questions| == 0
  {
    if loading || loadingAnswers then Spinner
    else if failed then ErrorPanel
    else if |p.questions| == 0 then EmptyState
    else if 0 <= p.index < |p.questions| then
      Asking(p.questions[p.index], Lookup(p.answers, p.questions[p.index].id))
    else HeaderOnly
  }

  /** A survey without questions never mounts an editor. */
  lemma EmptySurveyNeverAsks(p: Page, loading: bool, loadingAnswers: bool, failed: bool)
    requires |p.questions| == 0
    ensures !Render(p, loading, loadingAnswers, failed).Asking?
    ensures Redirect(p) == p
  {
  }

  // ---------------------------------------------------------------------
  // Navigation runs

  datatype Nav = Forward(updateOk: bool) | Back | Note(row: AnswerRow, sid: Sid)

  function Apply(p: Page, db: Store.Db, n: Nav): (Page, Store.Db) {
    match n
    case Forward(ok) => Next(p, db, ok)
    case Back => (Prev(p), db)
    case Note(row, sid) => (Saved(p, row, sid), db)
  }

  function Navigate(p: Page, db: Store.Db, ns: seq<Nav>): (Page, Store.Db)
    decreases |ns|
  {
    if |ns| == 0 then (p, db)
    else
      var (p1, db1) := Apply(p, db, ns[0]);
      Navigate(p1, db1, ns[1..])
  }

  /** The index stays on a question. */
  ghost predicate OnAQuestion(p: Page) {
    0 <= p.index < |p.questions|
  }

  /** Any run of Next, Previous and save notifications keeps the index on a
      question, so the redirect effect never fires and the questions never
      change. */
  lemma {:induction false} NavigationStaysInRange(p: Page, db: Store.Db, ns: seq<Nav>)
    requires OnAQuestion(p)
    ensures OnAQuestion(Navigate(p, db, ns).0)
    ensures Navigate(p, db, ns).0.questions == p.questions
    ensures Redirect(Navigate(p, db, ns).0) == Navigate(p, db, ns).0
    decreases |ns|
  {
    if |ns| > 0 {
      var (p1, db1) := Apply(p, db, ns[0]);
      assert OnAQuestion(p1);
      NavigationStaysInRange(p1, db1, ns[1..]);
    }
  }

  /** Previous undoes Next away from the last question, and Next undoes
      Previous away from the first. */
  lemma NextPrevInverse(p: Page, db: Store.Db, ok: bool)
    requires p.location == OnSurvey && OnAQuestion(p)
    ensures p.index < |p.questions| - 1 ==> Prev(Next(p, db, ok).0) == p
    ensures p.index > 0 ==> Next(Prev(p), db, ok) == (p, db)
  {
  }

  /** Next from the last question with an active submission and a working
      service marks that submission completed and leaves for its review;
      after that, Next changes nothing. */
  lemma LastNextCompletes(p: Page, db: Store.Db)
    requires p.location == OnSurvey && |p.questions| > 0 && p.index == |p.questions| - 1
    requires p.active.Some? && p.active.value in db.submissions
    ensures
      var (p1, db1) := Next(p, db, true);
      && p1.location == AtReview(p.active.value)
      && db1.submissions[p.active.value].status == Completed
      && Next(p1, db1, true) == (p1, db1)
  {
  }

  /** Next with no active submission changes no submission and stays put. */
  lemma NextWithoutSubmissionStays(p: Page, db: Store.Db, ok: bool)
    requires p.location == OnSurvey && p.index >= |p.questions| - 1 && p.active.None?
    ensures Next(p, db, ok) == (p, db)
  {
  }
}

=== FILE: types.dfy ===
/** Shared entities of the survey client: questions, submissions, answer rows
    and the dynamically typed values an input holds. */
module Types {

  datatype Option<T> = None | Some(value: T)

  /** Outcome of a store operation or of a handler that can throw. */
  datatype Result<T> = Ok(value: T) | Err(error: Failure)

  datatype Failure =
    | NotAuthenticated   // a save needed a submission but nobody is signed in
    | NotFound           // `.single()` matched no row
    | DuplicateKey       // an insert reused an existing primary key
    | ForeignKey         // a delete would orphan rows that reference it
    | NetworkFailure     // the data service reported an error
    | TypeError          // a JavaScript runtime type error

  type Qid = string
  type Uid = string
  type AnswerId = string

  /** Submission ids come from the data service and are never empty, so an
      id held in a variable is truthy exactly when it is present. */
  type Sid = s: string | |s| > 0 witness "s"

  datatype InputType = Text | Number | Date | Select | Radio | Checkbox

  /** One option of a choice question: the label shown and the value stored. */
  datatype Choice = Choice(caption: string, value: string)

  datatype Question = Question(
    id: Qid,
    surveyId: string,
    uiOrder: int,
    text: string,
    help: Option<string>,
    inputType: InputType,
    options: Option<seq<Choice>>)

  datatype Status = InProgress | Completed

  datatype Submission = Submission(id: Sid, surveyId: string, userId: Uid, status: Status)

  /** The value of a JavaScript `any` as far as this client produces or
      stores one. A number is carried as its canonical decimal text. */
  datatype Value =
    | Undefined
    | Null
    | Bool(b: bool)
    | Num(digits: string)
    | Str(s: string)
    | Arr(items: seq<Value>)
    | Obj(fields: seq<(string, Value)>)

  /** A row of the answers collection. `json` is Null or Undefined when the
      structured column is empty; `text` is None when the text column is. */
  datatype AnswerRow = AnswerRow(
    id: Option<AnswerId>,
    submissionId: Sid,
    questionId: Qid,
    text: Option<string>,
    json: Value)

  /** `v ?? fallback` tests for exactly these two. */
  predicate Nullish(v: Value) {
    v.Undefined? || v.Null?
  }

  /** JavaScript truthiness. */
  predicate Truthy(v: Value) {
    match v
    case Undefined => false
    case Null => false
    case Bool(b) => b
    case Num(d) => d != "0" && d != "-0" && d != "NaN"
    case Str(s) => s != ""
    case Arr(_) => true
    case Obj(_) => true
  }

  /** The value an editor starts from, and resets to, for a supplied answer:
      the structured column if it is not nullish, else the text column if
      present, else the empty string. */
  function InitialValue(answer: Option<AnswerRow>): (v: Value)
    ensures answer.None? ==> v == Str("")
    ensures answer.Some? && !Nullish(answer.value.json) ==> v == answer.value.json
    ensures answer.Some? && Nullish(answer.value.json) && answer.value.text.Some?
            ==> v == Str(answer.value.text.value)
    ensures answer.Some? && Nullish(answer.value.json) && answer.value.text.None?
            ==> v == Str("")
    ensures !v.Undefined?
  {
    match answer
    case None => Str("")
    case Some(a) =>
      if !Nullish(a.json) then a.json
      else if a.text.Some? then Str(a.text.value)
      else Str("")
  }

  /** `answer?.id`: the identity the editor resynchronises on. */
  function AnswerKey(answer: Option<AnswerRow>): Option<AnswerId> {
    match answer
    case None => None
    case Some(a) => a.id
  }

  /** The wire text of a status. */
  function StatusText(s: Status): (t: string)
    ensures t == "completed" <==> s == Completed
  {
    match s
    case InProgress => "in_progress"
    case Completed => "completed"
  }

  /** The combined length of some texts. */
  function TotalLength(parts: seq<string>): nat {
    if |parts| == 0 then 0 else TotalLength(parts[..|parts| - 1]) + |parts[|parts| - 1]|
  }

  /** `Array.prototype.join`, unfolded from the last text. */
  function Join(parts: seq<string>, sep: string): string {
    if |parts| == 0 then ""
    else if |parts| == 1 then parts[0]
    else Join(parts[..|parts| - 1], sep) + sep + parts[|parts| - 1]
  }

  /** Concatenation of `parts` with `sep` between neighbours, as
      `Array.prototype.join` does. */
  function JoinWith(parts: seq<string>, sep: string): (r: string)
    ensures |parts| == 0 ==> r == ""
    ensures |parts| == 1 ==> r == parts[0]
    ensures |parts| > 0 ==> |r| == TotalLength(parts) + (|parts| - 1) * |sep|
    ensures |parts| > 0 ==> |parts[0]| <= |r| && r[..|parts[0]|] == parts[0]
    ensures |parts| > 0 ==> r[|r| - |parts[|parts| - 1]|..] == parts[|parts| - 1]
  {
    if |parts| > 0 then
      JoinLength(parts, sep);
      JoinStartsWith(parts, sep);
      JoinEndsWith(parts, sep);
      Join(parts, sep)
    else ""
  }

  /** The length of a join: the texts plus one separator per neighbouring
      pair. */
  lemma {:induction false} JoinLength(parts: seq<string>, sep: string)
    requires |parts| > 0
    ensures |Join(parts, sep)| == TotalLength(parts) + (|parts| - 1) * |sep|
    decreases |parts|
  {
    if |parts| > 1 {
      JoinLength(parts[..|parts| - 1], sep);
    }
  }

  /** A join starts with its first text. */
  lemma {:induction false} JoinStartsWith(parts: seq<string>, sep: string)
    requires |parts| > 0
    ensures |parts[0]| <= |Join(parts, sep)| && Join(parts, sep)[..|parts[0]|] == parts[0]
    decreases |parts|
  {
    if |parts| > 1 {
      var front := parts[..|parts| - 1];
      JoinStartsWith(front, sep);
      assert front[0] == parts[0];
      var j := Join(front, sep);
      assert Join(parts, sep) == j + (sep + parts[|parts| - 1]);
      assert (j + (sep + parts[|parts| - 1]))[..|parts[0]|] == j[..|parts[0]|];
    }
  }

  /** A join ends with its last text. */
  lemma JoinEndsWith(parts: seq<string>, sep: string)
    requires |parts| > 0
    ensures var r := Join(parts, sep);
      r[|r| - |parts[|parts| - 1]|..] == parts[|parts| - 1]
  {
    var r := Join(parts, sep);
    var last := parts[|parts| - 1];
    if |parts| > 1 {
      var head := Join(parts[..|parts| - 1], sep) + sep;
      assert r == head + last;
      assert (head + last)[|head|..] == last;
    }
  }

  /** Joining a concatenation joins each part and puts one separator
      between them, so the separators fall exactly between neighbours. */
  lemma JoinWithAppend(a: seq<string>, b: seq<string>, sep: string)
    requires |a| > 0 && |b| > 0
    ensures JoinWith(a + b, sep) == JoinWith(a, sep) + sep + JoinWith(b, sep)
  {
    JoinAppend(a, b, sep);
  }

  lemma {:induction false} JoinAppend(a: seq<string>, b: seq<string>, sep: string)
    requires |a| > 0 && |b| > 0
    ensures Join(a + b, sep) == Join(a, sep) + sep + Join(b, sep)
    decreases |b|
  {
    var front, last := b[..|b| - 1], b[|b| - 1];
    assert (a + b)[..|a + b| - 1] == a + front;
    if |front| > 0 {
      JoinAppend(a, front, sep);
    } else {
      assert a + front == a;
    }
  }

  /** `String(v)` / `v.toString()`: JavaScript's conversion of a value to
      text. Array elements that are nullish convert to the empty string. */
  function ToText(v: Value): (t: string)
    ensures v.Str? ==> t == v.s
    ensures v.Num? ==> t == v.digits
    ensures v.Undefined? ==> t == "undefined"
  {
    match v
    case Undefined => "undefined"
    case Null => "null"
    case Bool(b) => if b then "true" else "false"
    case Num(d) => d
    case Str(s) => s
    case Arr(items) => JoinWith(ElementTexts(items), ",")
    case Obj(_) => "[object Object]"
  }

  /** Each element as `join` renders it: nullish elements become "". */
  function ElementTexts(items: seq<Value>): (ts: seq<string>)
    ensures |ts| == |items|
    ensures forall i :: 0 <= i < |items| ==>
      ts[i] == (if Nullish(items[i]) then "" else ToText(items[i]))
  {
    if |items| == 0 then []
    else ElementTexts(items[..|items| - 1])
         + [if Nullish(items[|items| - 1]) then "" else ToText(items[|items| - 1])]
  }
}
